=== FILE: README.md ===
# Lagos tertiary institution directory, modelled in Dafny

This project models the search-and-rank engine of the Lagos tertiary
institution directory (`lagos_institutions_directory.py`). The parts modelled are:

- an institution record with its category (university, polytechnic or college of education);
- the category's ranking weights and the composite rank score;
- the course-keyword test;
- the directory queries `filter`, `sort`, `top_n` and `summarize`;
- the mapping of one CSV row to an institution inside `from_csv`.

Everything is an immutable value and every operation a pure function. The
directory's collection therefore cannot change under a query.

Modules, one file each:

| file | module | what it holds |
|---|---|---|
| `optional.dfy` | `Optional` | `Option`, used for absent arguments, blank cells and the division by zero |
| `text.dfy` | `Text` | the string operations the code relies on: `strip()`, `lower()`, `kw in s` and `split` on the pipe character |
| `institutions.dfy` | `Institutions` | `Category`, the weight table, `Institution`, `rank_score` and `offers_course` |
| `ordering.dfy` | `Ordering` | the five sort keys, the name-to-key table and the order on key values |
| `sorting.dfy` | `Sorting` | a stable sort on a key, in either direction, that works like Python's `sorted(..., reverse=...)` |
| `filtering.dfy` | `Filtering` | the chain of generator stages `filter` builds, and why it equals a conjunction |
| `directory.dfy` | `DirectoryEngine` | `filter`, `sort`, `top_n`, `summarize` and the pipeline the command line runs |
| `loader.dfy` | `Loader` | the row→institution mapping: category dispatch, course splitting and defaults for blank cells |

Numbers are handled as follows:

- Floats are modelled as exact `real`s.
- Two places in `rank_score` can raise in Python:
  - The affordability division `1 / (1 + t / 1_000_000)` (lagos_institutions_directory.py:72) raises `ZeroDivisionError` at a tuition of −1,000,000. The model returns `None` there: `RankScore` is `None` exactly at that tuition. `Sort` on the rank key returns `None` when any element's score is undefined, because `sorted` evaluates the key of every element.
  - The size term `student_population / 30_000.0` (lagos_institutions_directory.py:74) raises `OverflowError` for a population beyond the float range. Such a population can come from the `int(...)` at lagos_institutions_directory.py:131. This raise is not modelled; see "## Left out".

The class hierarchy becomes a `Category` tag plus a weight table. The
ownership property (lower-casing on read) becomes the function `Ownership`.

Three behaviours of the code are easy to miss:

- **Blank course keyword.** `offers_course` strips the keyword and then runs `any` over the courses (lagos_institutions_directory.py:48-50). A keyword that strips to nothing is found in every course name, so it matches exactly the institutions with at least one course (`BlankKeyword`). `filter` skips an empty keyword through its `if course_keyword:` guard (lagos_institutions_directory.py:165). A whitespace-only keyword passes that guard, so it drops the institutions without courses.
- **Division by zero.** The comment at lagos_institutions_directory.py:71 describes the affordability formula as a soft cap that avoids division explosions. The division still fails at a tuition of −1,000,000 (see `RankScore`).
- **Score bound.** The comment at lagos_institutions_directory.py:68 says the features are normalised to 0–1. Only accreditation is clamped on both sides (line 69). The size term at line 74 is capped at 1 but has no floor, so a negative population gives a negative size term (`SizeTerm`). Affordability has no clamp at all (line 72): it exceeds 1 for a tuition strictly between −1,000,000 and 0, and it is negative below −1,000,000 (`AffordabilityTerm`). A saturated institution with a tuition in the first range scores above 1 (`NegativeTuitionScoresAboveOne`). The [0, 1] bound is proved for non-negative tuition and population.

## Model

| member | source | states |
|---|---|---|
| `Institutions.WeightsOf` | lagos_institutions_directory.py:86-110 | each category's weight triple is positive, sums to exactly 1, and gives accreditation the largest weight |
| `Institutions.Label` | lagos_institutions_directory.py:86-106 | each category reports its own label, a non-empty word of small ASCII letters |
| `Institutions.LabelInjective` | lagos_institutions_directory.py:86-106 | the three category labels are distinct |
| `Institutions.Ownership` | lagos_institutions_directory.py:30-31 | the reported ownership is lower-case and equals the stored one up to ASCII case, so it is exactly the stored value lower-cased |
| `Institutions.AccreditationTerm` | lagos_institutions_directory.py:69 | the accreditation term lies in [0, 1]; it is 0 for scores ≤ 0 and 1 exactly from 100 up; in between it is the score divided by 100 |
| `Institutions.AffordabilityTerm` | lagos_institutions_directory.py:72 | undefined exactly at tuition −1,000,000; for non-negative tuition it lies in (0, 1] and equals 1 exactly at zero tuition; above 1 for tuition strictly between −1,000,000 and 0, negative below −1,000,000; wherever defined, it times `1 + t / 1,000,000` is exactly 1 |
| `Institutions.AffordabilityDecreasing` | lagos_institutions_directory.py:72 | affordability strictly decreases as tuition grows, wherever it is defined and positive |
| `Institutions.SizeTerm` | lagos_institutions_directory.py:74 | the size term is at most 1, non-negative for a non-negative population and negative for a negative one, and 1 exactly from 30000 students up; below that it is population / 30000 |
| `Institutions.RankScore` | lagos_institutions_directory.py:65-76 | the score is undefined exactly when the affordability division fails; otherwise it is the sum of the three terms weighted by the institution's own category; for non-negative tuition and population it lies in [0, 1] |
| `Institutions.PerfectScore` | lagos_institutions_directory.py:65-76 | for non-negative tuition and population, the score is exactly 1 iff tuition is 0, accreditation is at least 100 and population is at least 30000 |
| `Institutions.ScoreMonotoneInAccreditation` | lagos_institutions_directory.py:65-76 | raising the accreditation score never lowers a defined rank score |
| `Institutions.NegativeTuitionScoresAboveOne` | lagos_institutions_directory.py:72-76 | a tuition between −1,000,000 and 0, with saturated accreditation and size, gives a score above 1 |
| `Institutions.CategoryScenario` | lagos_institutions_directory.py:64-110 | with tuition 1,000,000, accreditation 100 and 30000 students, a university scores 0.90, a polytechnic 0.825 and a college 0.80 |
| `Institutions.UniversityScenario` | lagos_institutions_directory.py:86-92 | a university with tuition 0, accreditation 100 and 30000 students scores exactly 1 |
| `Institutions.OffersCourse` | lagos_institutions_directory.py:48-50 | a course is offered iff some lower-cased course name contains the stripped, lower-cased keyword as a substring |
| `Institutions.BlankKeyword` | lagos_institutions_directory.py:48-50 | a keyword that strips to nothing is offered iff the institution lists at least one course |
| `Institutions.ComputerScenario` | test_lagos_institutions_directory.py:12-16 | "computer" is offered by an institution teaching "Computer Science" and not by one teaching only "Law" |
| `Text.Trim` | lagos_institutions_directory.py:49 | `strip()` leaves no whitespace at either end and is no longer than its input; it is empty iff the input is all whitespace, and it leaves already stripped strings alone |
| `Text.TrimIsInfix` | lagos_institutions_directory.py:49 | `strip()` keeps the infix of its input between the leading and the trailing whitespace, and everything it cuts is whitespace |
| `Text.TrimChars` | lagos_institutions_directory.py:49 | stripping introduces no character that was not in the input |
| `Text.TrimUnique` | lagos_institutions_directory.py:49 | the infix that starts and ends with non-whitespace and has only whitespace around it is what `strip()` returns |
| `Text.TrimPadded` | lagos_institutions_directory.py:124 | padding a string with whitespace on either side does not change what `strip()` returns |
| `Text.LowerTrim` | lagos_institutions_directory.py:124 | `strip().lower()` equals `lower().strip()` |
| `Text.Lower` | lagos_institutions_directory.py:49-50 | `lower()` keeps the length and lower-cases each character on its own (`LowerChar`) |
| `Text.LowerChar` | lagos_institutions_directory.py:49-50 | a capital A–Z becomes the small letter at the same place in the alphabet; every other character is unchanged; whitespace stays whitespace |
| `Text.LowerEqual` | lagos_institutions_directory.py:156-164 | two strings lower-case to the same string exactly when they differ only in the ASCII case of their letters |
| `Text.LowerSameIgnoringCase` | lagos_institutions_directory.py:31 | lower-casing changes nothing but the case of letters |
| `Text.LowerOfLower` | lagos_institutions_directory.py:49-50 | lower-casing is idempotent |
| `Text.Contains` | lagos_institutions_directory.py:50 | `kw in s` holds iff `kw` occurs at some position of `s` |
| `Text.ContainsEmpty` | lagos_institutions_directory.py:50 | the empty keyword occurs in every string |
| `Text.Split` | lagos_institutions_directory.py:128 | `split` on the pipe character gives at least one piece, no piece holds the separator, and joining the pieces back gives the input |
| `Text.SplitJoin` | lagos_institutions_directory.py:128 | splitting separator-free pieces joined by the separator gives those pieces back |
| `Ordering.LexLeTransitive` | lagos_institutions_directory.py:183 | Python's code-point order on lower-cased names is transitive |
| `Ordering.LexLeAntisymmetric` | lagos_institutions_directory.py:183 | two names each at most the other are equal |
| `Ordering.KeyLeTotal` | lagos_institutions_directory.py:179-186 | any two key values are comparable |
| `Ordering.ParseSortKey` | lagos_institutions_directory.py:179-185 | each of the five key names selects its own key; every other name selects the rank score |
| `Ordering.LexLe` | lagos_institutions_directory.py:183-186 | the string order `sorted` uses on names puts a string at or before every string it is a prefix of |
| `Ordering.LexLeFirstDifference` | lagos_institutions_directory.py:183-186 | `a <= b` on strings holds exactly when `a` is a prefix of `b` or, at the first position where they differ, `a` has the smaller code point |
| `Ordering.KeyOf` | lagos_institutions_directory.py:179-184 | only the `name` key is text; the name key is the name lower-cased, lower-case and equal to the name up to case |
| `Ordering.NameKeyIgnoresCase` | lagos_institutions_directory.py:183 | two institutions get the same name key exactly when their names differ only in case |
| `Sorting.SortOn` | lagos_institutions_directory.py:186 | `sorted` returns a permutation of its input, ordered on the key in the chosen direction, in which elements with equal keys keep their input order |
| `Sorting.InsertStable` | lagos_institutions_directory.py:186 | one insertion step puts the new element at the front of the elements with its key |
| `Sorting.StableSortUnique` | lagos_institutions_directory.py:186 | two sequences that are both ordered on a key and agree on the order of every equal-key group are equal, so the stable sort's result is determined |
| `Filtering.KeepPassing` | lagos_institutions_directory.py:155-171 | keeping the passing elements yields a subsequence whose elements all pass, with exactly the multiplicity each passing element had |
| `Filtering.ApplyStages` | lagos_institutions_directory.py:155-171 | the chain of generator stages keeps exactly the elements passing every stage, in input order, each as often as it occurs |
| `Filtering.StageOrderIrrelevant` | lagos_institutions_directory.py:155-171 | any two chains built from the same stages, in any order, keep the same elements in the same order |
| `DirectoryEngine.StagesMeanMatches` | lagos_institutions_directory.py:156-170 | an institution passes the stages built from the criteria iff it meets every supplied criterion |
| `DirectoryEngine.Passes` | lagos_institutions_directory.py:156-170 | the test of one generator stage: the category label, the reported ownership or the lower-cased LGA equals the stage's argument, the course keyword is offered, or the numeric bound is met |
| `DirectoryEngine.Stages` | lagos_institutions_directory.py:155-170 | a stage is in the chain exactly when its criterion is supplied, with the category, ownership and LGA arguments lower-cased; at most six stages |
| `DirectoryEngine.MatchesIgnoringCase` | lagos_institutions_directory.py:156-170 | an institution matches exactly when each supplied category, ownership and LGA criterion equals its value up to ASCII case, and every other supplied criterion holds |
| `DirectoryEngine.FilterIgnoresCase` | lagos_institutions_directory.py:156-164 | changing the case of the category, ownership or LGA criterion leaves `filter`'s result unchanged |
| `DirectoryEngine.Filter` | lagos_institutions_directory.py:146-171 | `filter` returns a subsequence of the directory whose elements meet every supplied criterion, and every matching institution appears as often as in the directory |
| `DirectoryEngine.FilterInAnyOrder` | lagos_institutions_directory.py:155-171 | applying the criteria's stages in any order gives the result of `filter` |
| `DirectoryEngine.NoCriteriaKeepsAll` | lagos_institutions_directory.py:155-171 | with every string criterion absent or empty and no numeric bound, `filter` returns the whole directory |
| `DirectoryEngine.FilterByCategory` | test_lagos_institutions_directory.py:6-10 | filtering on a category's label returns only institutions of that category |
| `DirectoryEngine.CategoryMatch` | lagos_institutions_directory.py:156-158 | an institution meeting a category criterion that names a label has that category |
| `DirectoryEngine.CriteriaCaseInsensitive` | lagos_institutions_directory.py:156-164 | lower-casing the category, ownership and LGA criteria beforehand does not change the result (the special case of `FilterIgnoresCase` it is derived from) |
| `DirectoryEngine.Sort` | lagos_institutions_directory.py:173-186 | `sort` fails exactly when ranking by score and some score is undefined; otherwise it returns a stable permutation ordered on the selected key |
| `DirectoryEngine.UnknownKeySortsByRank` | lagos_institutions_directory.py:179-185 | an unrecognised key name sorts exactly as `"rank"` does |
| `DirectoryEngine.TuitionOrdered` | lagos_institutions_directory.py:179-186 | sorting on tuition never fails and gives tuitions non-decreasing, or non-increasing when descending |
| `DirectoryEngine.PopulationOrdered` | lagos_institutions_directory.py:179-186 | sorting on population never fails and gives populations non-decreasing, or non-increasing when descending |
| `DirectoryEngine.NameOrdered` | lagos_institutions_directory.py:179-186 | sorting on name never fails and gives lower-cased names in code-point order, reversed when descending |
| `DirectoryEngine.AccreditationDescending` | test_lagos_institutions_directory.py:18-21 | sorting on accreditation, descending, never fails and gives non-increasing accreditation scores |
| `DirectoryEngine.SortIdempotent` | test_lagos_institutions_directory.py:18-21 | sorting a sorted result again, with the same key and direction, returns it unchanged |
| `DirectoryEngine.RankDescending` | test_lagos_institutions_directory.py:23-28 | when no tuition is exactly −1,000,000 (so every score is defined), sorting on rank, descending, succeeds and gives non-increasing scores |
| `DirectoryEngine.TopN` | lagos_institutions_directory.py:188-189 | `top_n` is the prefix of length `min(max(0, n), len)`: empty for `n <= 0`, everything when `n` exceeds the length |
| `DirectoryEngine.TopNAreBest` | lagos_institutions_directory.py:188-189 | taken from a sorted sequence, the first `n` stay sorted and may precede every element cut off |
| `DirectoryEngine.Summarize` | lagos_institutions_directory.py:191-197 | the summary is the fixed no-match message iff the input is empty; otherwise it holds one entry per institution, in input order, numbered from 1 |
| `DirectoryEngine.Pipeline` | lagos_institutions_directory.py:226-235 | filter, sort and top-N yield at most `n` directory members, each meeting the criteria, ordered on the sort key |
| `Loader.CategoryKey` | lagos_institutions_directory.py:124 | the category key is the stripped cell with every capital made small: lower-case, stripped, and equal to the stripped cell up to case |
| `Loader.CategoryOfKey` | lagos_institutions_directory.py:133-141 | `"polytechnic"` selects a polytechnic and the three college spellings select a college; otherwise the result's label is the key, or the result is a university |
| `Loader.ParseCategory` | lagos_institutions_directory.py:124-141 | a row is a polytechnic exactly when its key is `"polytechnic"` and a college exactly when its key is one of the three college spellings; every other row is a university |
| `Loader.ParseLabel` | lagos_institutions_directory.py:124-141 | a category's own label in the category cell selects that category |
| `Loader.ParseCategoryNormalised` | lagos_institutions_directory.py:124 | writing the normalised key back into the cell selects the same category as the original cell |
| `Loader.CategoryIgnoresCaseAndPadding` | lagos_institutions_directory.py:124 | whitespace around the category cell and the ASCII case of its letters do not change the selected category |
| `Loader.PaddedLabel` | lagos_institutions_directory.py:124-141 | a category's label in any mix of case and with any whitespace around it selects that category |
| `Loader.BlankCategoryIsUniversity` | lagos_institutions_directory.py:124-141 | a missing or blank category cell yields a university |
| `Loader.SplitCourses` | lagos_institutions_directory.py:128 | the courses read from the cell are exactly its non-blank stripped pieces, in order and with their repeats; each is non-empty, stripped and free of the pipe character |
| `Loader.KeepNonBlank` | lagos_institutions_directory.py:128 | of the stripped pieces, every non-blank one is kept, in order and as often as it occurs, and nothing else |
| `Loader.CoursesRoundTrip` | lagos_institutions_directory.py:128 | writing a clean course list into one pipe-separated cell and reading it back gives the list |
| `Loader.NoCourses` | lagos_institutions_directory.py:128 | a missing or empty course cell lists no course |
| `Loader.FromRow` | lagos_institutions_directory.py:124-141 | name and LGA are the stripped cells, ownership the stripped cell lower-cased, courses the split cell, the category the one the cell selects; a present number is carried over and a blank one reads as 0 |
| `Loader.LoadRoundTrip` | lagos_institutions_directory.py:124-141 | every institution in loaded form survives being written as a row and read back |
| `Loader.FromRows` | lagos_institutions_directory.py:119-143 | `from_csv` yields one institution per row, in row order, and every institution it yields is normalised (`Loaded`: stripped name, LGA and ownership, lower-case ownership, clean course list) |

## Left out

- Opening the file and `csv.DictReader` (lagos_institutions_directory.py:119-123) are I/O. The model starts from rows whose cells are already read.
- Number parsing with `float(...)` and `int(...)` (lagos_institutions_directory.py:129-131) is library parsing. A `Row` holds numbers that are already parsed, with `None` for a blank cell. The `ValueError` raised on unparsable text is not modelled.
- A missing name, ownership or LGA cell makes `.strip()` raise in Python. The model's rows always carry these three strings.
- The command line, `build_parser` and `main` (lagos_institutions_directory.py:201-243) are interface plumbing. Only the filter→sort→top-N composition `main` performs is stated (`DirectoryEngine.Pipeline`).
- The text of `line()` and of the non-empty summary (lagos_institutions_directory.py:79-82, 194-197) is number formatting (`:.0f`, `:,`, `:.3f`, `title()`).
- The default arguments `by="rank"`, `descending=True` (lagos_institutions_directory.py:175-176) and `n=5` (lagos_institutions_directory.py:188) are not modelled: `DirectoryEngine.Sort` and `DirectoryEngine.TopN` always take every argument explicitly.
- DirectoryEngine.Summarize: the non-empty case returns numbered entries rather than formatted lines. It also does not model the `rank_score()` call that can raise while a line is formatted.
- Institutions.RankScore: does not model the `OverflowError` raised by `student_population / 30_000.0` (lagos_institutions_directory.py:74) for a population beyond the float range. Integers are unbounded and converted to exact reals, so the model's score is defined there.
- DirectoryEngine.Sort: "fails exactly when some score is undefined" covers the division by zero only; the population overflow above also makes Python's `sort` on the rank key raise.
- IEEE-754 behaviour is not modelled: rounding, overflow to infinity, and NaN (`float("nan")` parses from a cell and compares false with everything). All numbers are exact reals.
- Text.Lower: lower-cases ASCII letters only. Python's `str.lower()` also maps non-ASCII letters, and a few of them to several characters, which would need Unicode case tables.
- The `dataclass`/`ABC` machinery, the defensive list copy returned by `courses`, and the `float()`/`int()` re-conversions in the property getters (lagos_institutions_directory.py:16-46) are not modelled. Values are immutable and already typed, so these have no effect on the model.

=== FILE: directory.dfy ===
/**
 * The query engine of `InstitutionDirectory`: filtering on up to six
 * optional criteria, sorting on a selectable key, truncation to the top N
 * and the summary of a result. The directory is an immutable value, so no
 * query can change the collection it holds.
 */
module DirectoryEngine {
  import opened Optional
  import opened Text
  import opened Institutions
  import opened Ordering
  import opened Sorting
  import opened Filtering

  /** The loaded collection, in load order. */
  datatype InstitutionDirectory = InstitutionDirectory(institutions: seq<Institution>)

  /** The optional arguments of `filter`; `None` stands for an argument left out. */
  datatype Criteria = Criteria(
    category: Option<string>,
    ownership: Option<string>,
    lga: Option<string>,
    courseKeyword: Option<string>,
    minAccreditation: Option<real>,
    maxTuition: Option<real>)

  /** Python's truth value of an optional string: present and non-empty. */
  predicate Given(o: Option<string>) {
    o.Some? && o.value != ""
  }

  /**
   * What `filter` promises of each institution it returns: every supplied
   * criterion holds. A string criterion that is missing or empty imposes
   * nothing; a numeric bound applies whenever it is present, zero included.
   */
  predicate Matches(c: Criteria, i: Institution) {
    && (Given(c.category) ==> Label(i.category) == Lower(c.category.value))
    && (Given(c.ownership) ==> Ownership(i) == Lower(c.ownership.value))
    && (Given(c.lga) ==> Lower(i.lga) == Lower(c.lga.value))
    && (Given(c.courseKeyword) ==> OffersCourse(i, c.courseKeyword.value))
    && (c.minAccreditation.Some? ==> i.accreditation >= c.minAccreditation.value)
    && (c.maxTuition.Some? ==> i.tuition <= c.maxTuition.value)
  }

  /** One narrowing step of the filter pipeline, with its argument already normalised. */
  datatype Stage =
    | CategoryIs(categoryLabel: string)
    | OwnershipIs(owner: string)
    | LgaIs(area: string)
    | OffersKeyword(keyword: string)
    | AccreditationAtLeast(least: real)
    | TuitionAtMost(most: real)

  /** The test one generator stage applies to an institution. */
  predicate Passes(st: Stage, i: Institution) {
    match st
    case CategoryIs(c) => Label(i.category) == c
    case OwnershipIs(o) => Ownership(i) == o
    case LgaIs(l) => Lower(i.lga) == l
    case OffersKeyword(kw) => OffersCourse(i, kw)
    case AccreditationAtLeast(m) => i.accreditation >= m
    case TuitionAtMost(t) => i.tuition <= t
  }

  /** The stages `filter` chains, in its order: a stage is present exactly when its criterion is supplied. */
  function Stages(c: Criteria): (r: seq<Stage>)
    ensures forall st :: st in r <==>
      || (Given(c.category) && st == CategoryIs(Lower(c.category.GetOr(""))))
      || (Given(c.ownership) && st == OwnershipIs(Lower(c.ownership.GetOr(""))))
      || (Given(c.lga) && st == LgaIs(Lower(c.lga.GetOr(""))))
      || (Given(c.courseKeyword) && st == OffersKeyword(c.courseKeyword.GetOr("")))
      || (c.minAccreditation.Some? && st == AccreditationAtLeast(c.minAccreditation.GetOr(0.0)))
      || (c.maxTuition.Some? && st == TuitionAtMost(c.maxTuition.GetOr(0.0)))
    ensures |r| <= 6
  {
    var s1 := StageIf(Given(c.category), CategoryIs(Lower(c.category.GetOr(""))));
    var s2 := StageIf(Given(c.ownership), OwnershipIs(Lower(c.ownership.GetOr(""))));
    var s3 := StageIf(Given(c.lga), LgaIs(Lower(c.lga.GetOr(""))));
    var s4 := StageIf(Given(c.courseKeyword), OffersKeyword(c.courseKeyword.GetOr("")));
    var s5 := StageIf(c.minAccreditation.Some?, AccreditationAtLeast(c.minAccreditation.GetOr(0.0)));
    var s6 := StageIf(c.maxTuition.Some?, TuitionAtMost(c.maxTuition.GetOr(0.0)));
    ChainMembers(
      Given(c.category), CategoryIs(Lower(c.category.GetOr(""))),
      Given(c.ownership), OwnershipIs(Lower(c.ownership.GetOr(""))),
      Given(c.lga), LgaIs(Lower(c.lga.GetOr(""))),
      Given(c.courseKeyword), OffersKeyword(c.courseKeyword.GetOr("")),
      c.minAccreditation.Some?, AccreditationAtLeast(c.minAccreditation.GetOr(0.0)),
      c.maxTuition.Some?, TuitionAtMost(c.maxTuition.GetOr(0.0)));
    s1 + s2 + s3 + s4 + s5 + s6
  }

  /** Appending an optional stage adds exactly that stage, when present. */
  lemma AppendStage(prefix: seq<Stage>, g: bool, t: Stage)
    ensures forall st :: st in prefix + StageIf(g, t) <==> st in prefix || (g && st == t)
    ensures |prefix + StageIf(g, t)| <= |prefix| + 1
  {
  }

  /** The members of a chain of six optional stages are the stages that are present. */
  lemma ChainMembers(g1: bool, t1: Stage, g2: bool, t2: Stage, g3: bool, t3: Stage,
                     g4: bool, t4: Stage, g5: bool, t5: Stage, g6: bool, t6: Stage)
    ensures var r := StageIf(g1, t1) + StageIf(g2, t2) + StageIf(g3, t3) + StageIf(g4, t4) + StageIf(g5, t5) + StageIf(g6, t6);
      && (forall st :: st in r <==>
            (g1 && st == t1) || (g2 && st == t2) || (g3 && st == t3) ||
            (g4 && st == t4) || (g5 && st == t5) || (g6 && st == t6))
      && |r| <= 6
  {
    AppendStage([], g1, t1);
    assert [] + StageIf(g1, t1) == StageIf(g1, t1);
    AppendStage(StageIf(g1, t1), g2, t2);
    AppendStage(StageIf(g1, t1) + StageIf(g2, t2), g3, t3);
    AppendStage(StageIf(g1, t1) + StageIf(g2, t2) + StageIf(g3, t3), g4, t4);
    AppendStage(StageIf(g1, t1) + StageIf(g2, t2) + StageIf(g3, t3) + StageIf(g4, t4), g5, t5);
    AppendStage(StageIf(g1, t1) + StageIf(g2, t2) + StageIf(g3, t3) + StageIf(g4, t4) + StageIf(g5, t5), g6, t6);
  }

  /** Passing the whole chain is passing each stage that the criteria supply. */
  lemma StagesPassing(c: Criteria, i: Institution)
    ensures PassesAll(Passes, Stages(c), i) <==>
      && (Given(c.category) ==> Passes(CategoryIs(Lower(c.category.GetOr(""))), i))
      && (Given(c.ownership) ==> Passes(OwnershipIs(Lower(c.ownership.GetOr(""))), i))
      && (Given(c.lga) ==> Passes(LgaIs(Lower(c.lga.GetOr(""))), i))
      && (Given(c.courseKeyword) ==> Passes(OffersKeyword(c.courseKeyword.GetOr("")), i))
      && (c.minAccreditation.Some? ==> Passes(AccreditationAtLeast(c.minAccreditation.GetOr(0.0)), i))
      && (c.maxTuition.Some? ==> Passes(TuitionAtMost(c.maxTuition.GetOr(0.0)), i))
  {
    var s1 := StageIf(Given(c.category), CategoryIs(Lower(c.category.GetOr(""))));
    var s2 := StageIf(Given(c.ownership), OwnershipIs(Lower(c.ownership.GetOr(""))));
    var s3 := StageIf(Given(c.lga), LgaIs(Lower(c.lga.GetOr(""))));
    var s4 := StageIf(Given(c.courseKeyword), OffersKeyword(c.courseKeyword.GetOr("")));
    var s5 := StageIf(c.minAccreditation.Some?, AccreditationAtLeast(c.minAccreditation.GetOr(0.0)));
    var s6 := StageIf(c.maxTuition.Some?, TuitionAtMost(c.maxTuition.GetOr(0.0)));
    PassesStageIf(Passes, Given(c.category), CategoryIs(Lower(c.category.GetOr(""))), i);
    PassesStageIf(Passes, Given(c.ownership), OwnershipIs(Lower(c.ownership.GetOr(""))), i);
    PassesStageIf(Passes, Given(c.lga), LgaIs(Lower(c.lga.GetOr(""))), i);
    PassesStageIf(Passes, Given(c.courseKeyword), OffersKeyword(c.courseKeyword.GetOr("")), i);
    PassesStageIf(Passes, c.minAccreditation.Some?, AccreditationAtLeast(c.minAccreditation.GetOr(0.0)), i);
    PassesStageIf(Passes, c.maxTuition.Some?, TuitionAtMost(c.maxTuition.GetOr(0.0)), i);
    PassesAllConcat(Passes, s1 + s2 + s3 + s4 + s5, s6, i);
    PassesAllConcat(Passes, s1 + s2 + s3 + s4, s5, i);
    PassesAllConcat(Passes, s1 + s2 + s3, s4, i);
    PassesAllConcat(Passes, s1 + s2, s3, i);
    PassesAllConcat(Passes, s1, s2, i);
  }

  /** Each stage tests its own criterion, read as `Matches` reads it. */
  lemma EachStageMeansItsCriterion(c: Criteria, i: Institution)
    ensures (Given(c.category) ==> Passes(CategoryIs(Lower(c.category.GetOr(""))), i))
        <==> (Given(c.category) ==> Label(i.category) == Lower(c.category.value))
    ensures (Given(c.ownership) ==> Passes(OwnershipIs(Lower(c.ownership.GetOr(""))), i))
        <==> (Given(c.ownership) ==> Ownership(i) == Lower(c.ownership.value))
    ensures (Given(c.lga) ==> Passes(LgaIs(Lower(c.lga.GetOr(""))), i))
        <==> (Given(c.lga) ==> Lower(i.lga) == Lower(c.lga.value))
    ensures (Given(c.courseKeyword) ==> Passes(OffersKeyword(c.courseKeyword.GetOr("")), i))
        <==> (Given(c.courseKeyword) ==> OffersCourse(i, c.courseKeyword.value))
    ensures (c.minAccreditation.Some? ==> Passes(AccreditationAtLeast(c.minAccreditation.GetOr(0.0)), i))
        <==> (c.minAccreditation.Some? ==> i.accreditation >= c.minAccreditation.value)
    ensures (c.maxTuition.Some? ==> Passes(TuitionAtMost(c.maxTuition.GetOr(0.0)), i))
        <==> (c.maxTuition.Some? ==> i.tuition <= c.maxTuition.value)
  {
  }

  /** The stages built from the criteria test exactly `Matches`. */
  lemma StagesMeanMatches(c: Criteria, i: Institution)
    ensures PassesAll(Passes, Stages(c), i) <==> Matches(c, i)
  {
    StagesPassing(c, i);
    EachStageMeansItsCriterion(c, i);
  }

  /**
   * `filter(...)`: the institutions of the directory meeting every supplied
   * criterion, in directory order, each with all its occurrences.
   */
  function Filter(d: InstitutionDirectory, c: Criteria): (r: seq<Institution>)
    ensures SubseqOf(r, d.institutions)
    ensures forall j :: 0 <= j < |r| ==> Matches(c, r[j])
    ensures forall x :: multiset(r)[x] == if Matches(c, x) then multiset(d.institutions)[x] else 0
  {
    AllStagesMeanMatches(c);
    ApplyStages(Passes, d.institutions, Stages(c))
  }

  /** `StagesMeanMatches` for every institution at once. */
  lemma AllStagesMeanMatches(c: Criteria)
    ensures forall i :: PassesAll(Passes, Stages(c), i) <==> Matches(c, i)
  {
    forall i
      ensures PassesAll(Passes, Stages(c), i) <==> Matches(c, i)
    {
      StagesMeanMatches(c, i);
    }
  }

  /**
   * Applying the same stages in any other order, repeats included, gives the
   * same result as `filter`.
   */
  lemma FilterInAnyOrder(d: InstitutionDirectory, c: Criteria, order: seq<Stage>)
    requires forall st :: st in order <==> st in Stages(c)
    ensures ApplyStages(Passes, d.institutions, order) == Filter(d, c)
  {
    StageOrderIrrelevant(Passes, d.institutions, order, Stages(c));
  }

  /** With no criterion supplied, or only empty strings, the whole directory comes back. */
  lemma {:induction false} NoCriteriaKeepsAll(d: InstitutionDirectory, c: Criteria)
    requires !Given(c.category) && !Given(c.ownership) && !Given(c.lga) && !Given(c.courseKeyword)
    requires c.minAccreditation.None? && c.maxTuition.None?
    ensures Filter(d, c) == d.institutions
  {
    assert Stages(c) == [];
  }

  /** Filtering on a category label returns only institutions of that category. */
  lemma FilterByCategory(d: InstitutionDirectory, c: Criteria, cat: Category)
    requires c.category == Some(Label(cat))
    ensures forall j :: 0 <= j < |Filter(d, c)| ==> Filter(d, c)[j].category == cat
  {
    var r := Filter(d, c);
    forall j | 0 <= j < |r|
      ensures r[j].category == cat
    {
      CategoryMatch(c, r[j], cat);
    }
  }

  /** An institution matching a category criterion that names a label belongs to that category. */
  lemma CategoryMatch(c: Criteria, i: Institution, cat: Category)
    requires c.category == Some(Label(cat)) && Matches(c, i)
    ensures i.category == cat
  {
    LabelWord(Label(cat));
    LowerOfLower(Label(cat));
    LabelInjective(i.category, cat);
  }

  /** The string criteria are case-insensitive: lower-casing them first changes nothing. */
  lemma CriteriaCaseInsensitive(d: InstitutionDirectory, c: Criteria, lowered: Criteria)
    requires lowered == c.(category := LowerOpt(c.category), ownership := LowerOpt(c.ownership), lga := LowerOpt(c.lga))
    ensures Filter(d, lowered) == Filter(d, c)
  {
    if c.category.Some? { LowerSameIgnoringCase(c.category.value); }
    if c.ownership.Some? { LowerSameIgnoringCase(c.ownership.value); }
    if c.lga.Some? { LowerSameIgnoringCase(c.lga.value); }
    FilterIgnoresCase(d, c, lowered);
  }

  /**
   * `filter` compares category, ownership and LGA without regard to ASCII
   * case: an institution matches exactly when each supplied text criterion
   * equals the institution's value up to case.
   */
  lemma MatchesIgnoringCase(c: Criteria, i: Institution)
    ensures Matches(c, i) <==>
      && (Given(c.category) ==> SameIgnoringCase(Label(i.category), c.category.value))
      && (Given(c.ownership) ==> SameIgnoringCase(i.ownership, c.ownership.value))
      && (Given(c.lga) ==> SameIgnoringCase(i.lga, c.lga.value))
      && (Given(c.courseKeyword) ==> OffersCourse(i, c.courseKeyword.value))
      && (c.minAccreditation.Some? ==> i.accreditation >= c.minAccreditation.value)
      && (c.maxTuition.Some? ==> i.tuition <= c.maxTuition.value)
  {
    if Given(c.category) {
      assert IsLower(Label(i.category));
      LowerOfLower(Label(i.category));
      LowerEqual(Label(i.category), c.category.value);
    }
    if Given(c.ownership) {
      LowerEqual(i.ownership, c.ownership.value);
    }
    if Given(c.lga) {
      LowerEqual(i.lga, c.lga.value);
    }
  }

  /** Two optional text criteria that are both absent, or both present and equal up to case. */
  predicate SameOptIgnoringCase(a: Option<string>, b: Option<string>) {
    (a.None? && b.None?) || (a.Some? && b.Some? && SameIgnoringCase(a.value, b.value))
  }

  /** Changing the case of the category, ownership or LGA criterion does not change `filter`'s result. */
  lemma FilterIgnoresCase(d: InstitutionDirectory, c: Criteria, e: Criteria)
    requires SameOptIgnoringCase(c.category, e.category)
    requires SameOptIgnoringCase(c.ownership, e.ownership)
    requires SameOptIgnoringCase(c.lga, e.lga)
    requires e.courseKeyword == c.courseKeyword
    requires e.minAccreditation == c.minAccreditation && e.maxTuition == c.maxTuition
    ensures Filter(d, e) == Filter(d, c)
  {
    SameOptLower(c.category, e.category);
    SameOptLower(c.ownership, e.ownership);
    SameOptLower(c.lga, e.lga);
    assert Stages(e) == Stages(c);
  }

  /** Criteria equal up to case are supplied alike and lower-case alike. */
  lemma SameOptLower(a: Option<string>, b: Option<string>)
    requires SameOptIgnoringCase(a, b)
    ensures Given(a) == Given(b)
    ensures Lower(a.GetOr("")) == Lower(b.GetOr(""))
  {
    LowerEqual(a.GetOr(""), b.GetOr(""));
  }

  /** A criterion lower-cased when it is supplied. */
  function LowerOpt(o: Option<string>): Option<string> {
    match o
    case None => None
    case Some(s) => Some(Lower(s))
  }

  /**
   * `sort(xs, keyName, descending)`: `None` where Python raises because some rank
   * score divides by zero (only when sorting on the rank score); otherwise a
   * stable permutation of `xs` ordered on the selected key. Unknown key names
   * select the rank score.
   */
  function Sort(xs: seq<Institution>, keyName: string, descending: bool): (r: Option<seq<Institution>>)
    ensures r.None? <==> ParseSortKey(keyName) == ByRank && exists j :: 0 <= j < |xs| && RankScore(xs[j]).None?
    ensures r.Some? ==> multiset(r.value) == multiset(xs)
    ensures r.Some? ==> Sorted(KeyFn(ParseSortKey(keyName)), descending, r.value)
    ensures r.Some? ==> forall v :: Class(r.value, KeyFn(ParseSortKey(keyName)), v) == Class(xs, KeyFn(ParseSortKey(keyName)), v)
  {
    var k := ParseSortKey(keyName);
    if k == ByRank && exists j :: 0 <= j < |xs| && RankScore(xs[j]).None? then None
    else Some(SortOn(KeyFn(k), descending, xs))
  }

  /** An unrecognised key name sorts exactly as `"rank"` does. */
  lemma UnknownKeySortsByRank(xs: seq<Institution>, keyName: string, descending: bool)
    requires forall k: SortKey :: keyName != SortKeyName(k)
    ensures Sort(xs, keyName, descending) == Sort(xs, "rank", descending)
  {
    assert ParseSortKey(keyName) == ByRank;
    assert ParseSortKey(SortKeyName(ByRank)) == ByRank;
  }

  /** Sorting on accreditation, descending, gives non-increasing accreditation scores. */
  lemma AccreditationDescending(xs: seq<Institution>, keyName: string)
    requires keyName == "accreditation"
    ensures Sort(xs, keyName, true).Some?
    ensures var r := Sort(xs, keyName, true).value;
      forall i, j :: 0 <= i < j < |r| ==> r[i].accreditation >= r[j].accreditation
  {
    assert ParseSortKey(keyName) == ParseSortKey(SortKeyName(ByAccreditation)) == ByAccreditation;
    var r := Sort(xs, keyName, true).value;
    forall i, j | 0 <= i < j < |r|
      ensures r[i].accreditation >= r[j].accreditation
    {
      assert InOrder(KeyFn(ByAccreditation), true, r[i], r[j]);
    }
  }

  /** Sorting on tuition gives tuitions in the requested direction. */
  lemma TuitionOrdered(xs: seq<Institution>, keyName: string, descending: bool)
    requires keyName == "tuition"
    ensures Sort(xs, keyName, descending).Some?
    ensures var r := Sort(xs, keyName, descending).value;
      forall i, j :: 0 <= i < j < |r| ==>
        if descending then r[i].tuition >= r[j].tuition else r[i].tuition <= r[j].tuition
  {
    assert ParseSortKey(keyName) == ParseSortKey(SortKeyName(ByTuition)) == ByTuition;
    var r := Sort(xs, keyName, descending).value;
    forall i, j | 0 <= i < j < |r|
      ensures if descending then r[i].tuition >= r[j].tuition else r[i].tuition <= r[j].tuition
    {
      assert InOrder(KeyFn(ByTuition), descending, r[i], r[j]);
    }
  }

  /** Sorting on student population gives populations in the requested direction. */
  lemma PopulationOrdered(xs: seq<Institution>, keyName: string, descending: bool)
    requires keyName == "population"
    ensures Sort(xs, keyName, descending).Some?
    ensures var r := Sort(xs, keyName, descending).value;
      forall i, j :: 0 <= i < j < |r| ==>
        if descending then r[i].population >= r[j].population else r[i].population <= r[j].population
  {
    assert ParseSortKey(keyName) == ParseSortKey(SortKeyName(ByPopulation)) == ByPopulation;
    var r := Sort(xs, keyName, descending).value;
    forall i, j | 0 <= i < j < |r|
      ensures if descending then r[i].population >= r[j].population else r[i].population <= r[j].population
    {
      assert InOrder(KeyFn(ByPopulation), descending, r[i], r[j]);
    }
  }

  /**
   * Sorting on the name gives names in the requested direction, compared
   * lower-cased by code point as Python compares strings.
   */
  lemma NameOrdered(xs: seq<Institution>, keyName: string, descending: bool)
    requires keyName == "name"
    ensures Sort(xs, keyName, descending).Some?
    ensures var r := Sort(xs, keyName, descending).value;
      forall i, j :: 0 <= i < j < |r| ==>
        if descending then LexLe(Lower(r[j].name), Lower(r[i].name))
        else LexLe(Lower(r[i].name), Lower(r[j].name))
  {
    assert ParseSortKey(keyName) == ParseSortKey(SortKeyName(ByName)) == ByName;
    var r := Sort(xs, keyName, descending).value;
    forall i, j | 0 <= i < j < |r|
      ensures if descending then LexLe(Lower(r[j].name), Lower(r[i].name))
        else LexLe(Lower(r[i].name), Lower(r[j].name))
    {
      assert InOrder(KeyFn(ByName), descending, r[i], r[j]);
    }
  }

  /**
   * Sorting on the rank score, descending, gives non-increasing scores whenever
   * every score is defined, that is, when no tuition is exactly minus one million.
   */
  lemma RankDescending(xs: seq<Institution>)
    requires forall j :: 0 <= j < |xs| ==> xs[j].tuition != -TuitionScale
    ensures Sort(xs, "rank", true).Some?
    ensures var r := Sort(xs, "rank", true).value;
      forall i, j :: 0 <= i < j < |r| ==>
        RankScore(r[i]).Some? && RankScore(r[j]).Some? && RankScore(r[i]).value >= RankScore(r[j]).value
  {
    assert ParseSortKey("rank") == ByRank;
    assert forall j :: 0 <= j < |xs| ==> RankScore(xs[j]).Some?;
    var r := Sort(xs, "rank", true).value;
    ScoresSurvivePermutation(xs, r);
    ScoresDescend(r);
  }

  /** Reordering a list keeps every rank score defined when it was defined before. */
  lemma ScoresSurvivePermutation(xs: seq<Institution>, r: seq<Institution>)
    requires multiset(r) == multiset(xs)
    requires forall j :: 0 <= j < |xs| ==> RankScore(xs[j]).Some?
    ensures forall j :: 0 <= j < |r| ==> RankScore(r[j]).Some?
  {
    forall j | 0 <= j < |r|
      ensures RankScore(r[j]).Some?
    {
      assert r[j] in multiset(xs);
    }
  }

  /** On a rank-sorted sequence whose scores are all defined, the scores do not increase. */
  lemma ScoresDescend(r: seq<Institution>)
    requires Sorted(KeyFn(ByRank), true, r)
    requires forall j :: 0 <= j < |r| ==> RankScore(r[j]).Some?
    ensures forall i, j :: 0 <= i < j < |r| ==> RankScore(r[i]).value >= RankScore(r[j]).value
  {
    forall i, j | 0 <= i < j < |r|
      ensures RankScore(r[i]).value >= RankScore(r[j]).value
    {
      assert InOrder(KeyFn(ByRank), true, r[i], r[j]);
    }
  }

  /**
   * Sorting an already sorted result again, on the same key and direction,
   * gives it back unchanged.
   */
  lemma SortIdempotent(xs: seq<Institution>, keyName: string, descending: bool)
    requires Sort(xs, keyName, descending).Some?
    ensures var r := Sort(xs, keyName, descending).value;
      Sort(r, keyName, descending) == Some(r)
  {
    var k := ParseSortKey(keyName);
    var r := Sort(xs, keyName, descending).value;
    if k == ByRank {
      forall j | 0 <= j < |r|
        ensures RankScore(r[j]).Some?
      {
        assert r[j] in multiset(xs);
      }
    }
    var again := SortOn(KeyFn(k), descending, r);
    StableSortUnique(KeyFn(k), descending, again, r);
  }

  /** `top_n(xs, n)`: the first `n` elements, none for `n <= 0`, all when `n` exceeds the length. */
  function TopN(xs: seq<Institution>, n: int): (r: seq<Institution>)
    ensures |r| == if n <= 0 then 0 else if n < |xs| then n else |xs|
    ensures r == xs[..|r|]
  {
    if n <= 0 then [] else if n < |xs| then xs[..n] else xs
  }

  /** From a sorted sequence, the first `n` may precede every one that was cut off. */
  lemma TopNAreBest(key: Institution -> Key, descending: bool, xs: seq<Institution>, n: int)
    requires Sorted(key, descending, xs)
    ensures Sorted(key, descending, TopN(xs, n))
    ensures forall i, j :: 0 <= i < |TopN(xs, n)| <= j < |xs| ==> InOrder(key, descending, xs[i], xs[j])
  {
  }

  /** One numbered line of the summary: 1-based rank position and institution. */
  datatype Entry = Entry(position: nat, institution: Institution)

  /** A summary: the fixed no-match message, or one numbered entry per institution. */
  datatype Summary = Message(text: string) | Numbered(entries: seq<Entry>)

  const NoMatchText: string := "No institutions matched your criteria."

  /** `summarize(xs)`, short of the text formatting of each line. */
  function Summarize(xs: seq<Institution>): (r: Summary)
    ensures |xs| == 0 <==> r == Message(NoMatchText)
    ensures r.Numbered? ==> |r.entries| == |xs|
    ensures r.Numbered? ==>
              forall k :: 0 <= k < |r.entries| ==> r.entries[k] == Entry(k + 1, xs[k])
  {
    if |xs| == 0 then Message(NoMatchText)
    else Numbered(seq(|xs|, k requires 0 <= k < |xs| => Entry(k + 1, xs[k])))
  }

  /**
   * The query the command line runs, filter then sort then top N: what comes
   * out matches the criteria, is in the directory, is ordered on the key and
   * is no longer than asked for.
   */
  lemma Pipeline(d: InstitutionDirectory, c: Criteria, keyName: string, descending: bool, n: int)
    requires Sort(Filter(d, c), keyName, descending).Some?
    ensures var top := TopN(Sort(Filter(d, c), keyName, descending).value, n);
      && |top| <= (if n <= 0 then 0 else n)
      && Sorted(KeyFn(ParseSortKey(keyName)), descending, top)
      && forall j :: 0 <= j < |top| ==> Matches(c, top[j]) && top[j] in d.institutions
  {
    var f := Filter(d, c);
    var s := Sort(f, keyName, descending).value;
    var top := TopN(s, n);
    TopNAreBest(KeyFn(ParseSortKey(keyName)), descending, s, n);
    forall j | 0 <= j < |top|
      ensures Matches(c, top[j]) && top[j] in d.institutions
    {
      assert top[j] == s[j];
      assert s[j] in multiset(f);
      FilterMember(d, c, s[j]);
    }
  }

  /** Whatever `filter` returns matches the criteria and comes from the directory. */
  lemma FilterMember(d: InstitutionDirectory, c: Criteria, x: Institution)
    requires x in multiset(Filter(d, c))
    ensures Matches(c, x) && x in d.institutions
  {
    assert multiset(d.institutions)[x] > 0;
  }
}

=== FILE: filtering.dfy ===
/**
 * Filtering by a chain of generator stages, `(x for x in res if p(x))`
 * applied once per stage, and why the chain keeps exactly what passes the
 * conjunction of its stages in any order. Stages and elements are type
 * parameters; the directory instantiates them with its filter criteria and
 * institutions.
 */
module Filtering {

  /** `a` can be obtained from `b` by deleting elements, keeping the order of the rest. */
  predicate SubseqOf<T(==)>(a: seq<T>, b: seq<T>)
    decreases |b|
  {
    if a == [] then true
    else if b == [] then false
    else (a[0] == b[0] && SubseqOf(a[1..], b[1..])) || SubseqOf(a, b[1..])
  }

  /** `x` passes every stage. */
  predicate PassesAll<S, T(!new)>(passes: (S, T) -> bool, stages: seq<S>, x: T) {
    forall j :: 0 <= j < |stages| ==> passes(stages[j], x)
  }

  /**
   * The elements of `xs` passing every stage, in their order in `xs`, each
   * with all its occurrences.
   */
  function KeepPassing<S, T(==,!new)>(passes: (S, T) -> bool, xs: seq<T>, stages: seq<S>): (r: seq<T>)
    ensures SubseqOf(r, xs)
    ensures forall j :: 0 <= j < |r| ==> PassesAll(passes, stages, r[j])
    ensures forall x :: multiset(r)[x] == if PassesAll(passes, stages, x) then multiset(xs)[x] else 0
  {
    if xs == [] then []
    else
      var rest := KeepPassing(passes, xs[1..], stages);
      assert xs == [xs[0]] + xs[1..];
      if PassesAll(passes, stages, xs[0]) then
        assert ([xs[0]] + rest)[1..] == rest;
        [xs[0]] + rest
      else rest
  }

  /**
   * The generator chain: each stage narrows what the previous ones left. The
   * chain keeps exactly the elements passing the conjunction of its stages.
   */
  function ApplyStages<S, T(==,!new)>(passes: (S, T) -> bool, xs: seq<T>, stages: seq<S>): (r: seq<T>)
    ensures r == KeepPassing(passes, xs, stages)
    decreases |stages|
  {
    if stages == [] then
      KeepPassingNoStages(passes, xs);
      xs
    else
      KeepPassingTwice(passes, xs, stages[0], stages[1..]);
      assert [stages[0]] + stages[1..] == stages;
      ApplyStages(passes, KeepPassing(passes, xs, [stages[0]]), stages[1..])
  }

  /** Passing a chain that starts with `st` is passing `st` and then the rest. */
  lemma PassesAllCons<S, T(!new)>(passes: (S, T) -> bool, st: S, rest: seq<S>, x: T)
    ensures PassesAll(passes, [st] + rest, x) <==> passes(st, x) && PassesAll(passes, rest, x)
  {
    var all := [st] + rest;
    assert all[0] == st;
    assert forall j :: 0 <= j < |rest| ==> all[j + 1] == rest[j];
    if passes(st, x) && PassesAll(passes, rest, x) {
      forall j | 0 <= j < |all|
        ensures passes(all[j], x)
      {
        if j > 0 {
          assert all[j] == rest[j - 1];
        }
      }
    }
  }

  /** Keeping what passes one stage and then what passes the rest keeps what passes all. */
  lemma {:induction false} KeepPassingTwice<S, T(!new)>(passes: (S, T) -> bool, xs: seq<T>, st: S, rest: seq<S>)
    ensures KeepPassing(passes, KeepPassing(passes, xs, [st]), rest) == KeepPassing(passes, xs, [st] + rest)
  {
    if xs != [] {
      KeepPassingTwice(passes, xs[1..], st, rest);
      PassesAllCons(passes, st, rest, xs[0]);
      PassesAllCons(passes, st, [], xs[0]);
      assert [st] + [] == [st];
      var once := KeepPassing(passes, xs, [st]);
      if passes(st, xs[0]) {
        assert once == [xs[0]] + KeepPassing(passes, xs[1..], [st]);
        assert once[1..] == KeepPassing(passes, xs[1..], [st]);
      } else {
        assert once == KeepPassing(passes, xs[1..], [st]);
      }
    }
  }

  /** With no stages at all, every element is kept. */
  lemma {:induction false} KeepPassingNoStages<S, T(!new)>(passes: (S, T) -> bool, xs: seq<T>)
    ensures KeepPassing(passes, xs, []) == xs
  {
    if xs != [] {
      KeepPassingNoStages(passes, xs[1..]);
      assert PassesAll(passes, [], xs[0]);
      assert KeepPassing(passes, xs, []) == [xs[0]] + KeepPassing(passes, xs[1..], []);
      assert xs == [xs[0]] + xs[1..];
    }
  }

  /** Keeping depends only on which elements pass, not on how the test is put together. */
  lemma {:induction false} KeepPassingCongruent<S, T(!new)>(passes: (S, T) -> bool, xs: seq<T>, s1: seq<S>, s2: seq<S>)
    requires forall x :: PassesAll(passes, s1, x) <==> PassesAll(passes, s2, x)
    ensures KeepPassing(passes, xs, s1) == KeepPassing(passes, xs, s2)
  {
    if xs != [] {
      KeepPassingCongruent(passes, xs[1..], s1, s2);
    }
  }

  /**
   * The order of the stages does not matter: two chains made of the same
   * stages keep the same elements in the same order.
   */
  lemma StageOrderIrrelevant<S, T(!new)>(passes: (S, T) -> bool, xs: seq<T>, s1: seq<S>, s2: seq<S>)
    requires forall st :: st in s1 <==> st in s2
    ensures ApplyStages(passes, xs, s1) == ApplyStages(passes, xs, s2)
  {
    forall x
      ensures PassesAll(passes, s1, x) <==> PassesAll(passes, s2, x)
    {
      if PassesAll(passes, s1, x) {
        forall j | 0 <= j < |s2|
          ensures passes(s2[j], x)
        {
          assert s2[j] in s2;
          var m :| 0 <= m < |s1| && s1[m] == s2[j];
        }
      }
      if PassesAll(passes, s2, x) {
        forall j | 0 <= j < |s1|
          ensures passes(s1[j], x)
        {
          assert s1[j] in s1;
          var m :| 0 <= m < |s2| && s2[m] == s1[j];
        }
      }
    }
    KeepPassingCongruent(passes, xs, s1, s2);
  }

  /** Passing two chains one after the other is passing each of them. */
  lemma PassesAllConcat<S, T(!new)>(passes: (S, T) -> bool, a: seq<S>, b: seq<S>, x: T)
    ensures PassesAll(passes, a + b, x) <==> PassesAll(passes, a, x) && PassesAll(passes, b, x)
  {
    if PassesAll(passes, a, x) && PassesAll(passes, b, x) {
      forall j | 0 <= j < |a + b|
        ensures passes((a + b)[j], x)
      {
        if j >= |a| {
          assert (a + b)[j] == b[j - |a|];
        }
      }
    }
    if PassesAll(passes, a + b, x) {
      forall j | 0 <= j < |a|
        ensures passes(a[j], x)
      {
        assert (a + b)[j] == a[j];
      }
      forall j | 0 <= j < |b|
        ensures passes(b[j], x)
      {
        assert (a + b)[|a| + j] == b[j];
      }
    }
  }

  /** A stage that is present only when its criterion is supplied. */
  function StageIf<S(!new)>(supplied: bool, st: S): (r: seq<S>)
    ensures |r| <= 1
    ensures forall x :: x in r <==> supplied && x == st
  {
    if supplied then [st] else []
  }

  /** A stage that is left out constrains nothing. */
  lemma PassesStageIf<S(!new), T(!new)>(passes: (S, T) -> bool, supplied: bool, st: S, x: T)
    ensures PassesAll(passes, StageIf(supplied, st), x) <==> (supplied ==> passes(st, x))
  {
    if supplied {
      assert StageIf(supplied, st)[0] == st;
    }
  }
}

=== FILE: institutions.dfy ===
/**
 * One tertiary institution, its category-specific ranking weights and its
 * composite rank score. The class hierarchy University / Polytechnic /
 * CollegeOfEducation becomes a `Category` tag with a weight table; numbers
 * are exact reals, so floating-point rounding is not modelled.
 */
module Institutions {
  import opened Optional
  import opened Text

  datatype Category = University | Polytechnic | College

  /** The category label an institution reports (`category` property): a non-empty lower-case word. */
  function Label(c: Category): (l: string)
    ensures l != []
    ensures forall k :: 0 <= k < |l| ==> 'a' <= l[k] <= 'z'
  {
    match c
    case University => "university"
    case Polytechnic => "polytechnic"
    case College => "college"
  }

  /** Distinct categories report distinct labels. */
  lemma LabelInjective(a: Category, b: Category)
    ensures Label(a) == Label(b) ==> a == b
  {
    if Label(a) == Label(b) {
      assert |Label(a)| == |Label(b)| && Label(a)[0] == Label(b)[0];
    }
  }

  /** The labels are lower-case words. */
  lemma LabelWord(l: string)
    requires l == Label(University) || l == Label(Polytechnic) || l == Label(College)
    ensures IsLower(l)
    ensures IsTrimmed(l)
  {
    LetterNotListed(l[0] as int, SpaceCodes);
    LetterNotListed(l[|l| - 1] as int, SpaceCodes);
  }

  /** Ranking emphasis: weights of accreditation, affordability and size. */
  datatype Weights = Weights(accreditation: real, affordability: real, size: real)

  /** `base_rank_weights()` of each subclass. */
  function WeightsOf(c: Category): (w: Weights)
    ensures w.accreditation + w.affordability + w.size == 1.0
    ensures 0.0 < w.accreditation && 0.0 < w.affordability && 0.0 < w.size
    ensures w.accreditation >= w.affordability && w.accreditation >= w.size
  {
    match c
    case University => Weights(0.60, 0.20, 0.20)
    case Polytechnic => Weights(0.45, 0.35, 0.20)
    case College => Weights(0.50, 0.40, 0.10)
  }

  /**
   * The record behind `BaseInstitution`. Fields are immutable; `ownership`
   * is stored as given and reported lower-cased by `Ownership`.
   */
  datatype Institution = Institution(
    name: string,
    ownership: string,
    lga: string,
    courses: seq<string>,
    tuition: real,
    accreditation: real,
    population: int,
    category: Category)

  /** The `ownership` property: the stored value, lower-cased. */
  function Ownership(i: Institution): (r: string)
    ensures IsLower(r)
    ensures SameIgnoringCase(r, i.ownership)
  {
    LowerSameIgnoringCase(i.ownership);
    Lower(i.ownership)
  }

  /** Monetary scale of the affordability term (one million naira). */
  const TuitionScale: real := 1_000_000.0
  /** Population at which the size term saturates. */
  const FullSize: real := 30_000.0

  /** Accreditation score mapped onto [0, 1]: `max(0, min(1, a / 100))`. */
  function AccreditationTerm(a: real): (r: real)
    ensures 0.0 <= r <= 1.0
    ensures a <= 0.0 ==> r == 0.0
    ensures 100.0 <= a <==> r == 1.0
    ensures 0.0 <= a <= 100.0 ==> r * 100.0 == a
  {
    var x := a / 100.0;
    var upper := if 1.0 < x then 1.0 else x;
    if 0.0 < upper then upper else 0.0
  }

  /**
   * Affordability `1 / (1 + t / 1_000_000)`. The division fails, as Python's
   * `ZeroDivisionError` does, exactly when the tuition is minus one million.
   */
  function AffordabilityTerm(t: real): (r: Option<real>)
    ensures r.None? <==> t == -TuitionScale
    ensures t >= 0.0 ==> r.Some? && 0.0 < r.value <= 1.0
    ensures t >= 0.0 ==> (r.value == 1.0 <==> t == 0.0)
    ensures -TuitionScale < t < 0.0 ==> r.Some? && r.value > 1.0
    ensures t < -TuitionScale ==> r.Some? && r.value < 0.0
    ensures r.Some? ==> r.value * (1.0 + t / TuitionScale) == 1.0
  {
    var d := 1.0 + t / TuitionScale;
    if d == 0.0 then None
    else
      var v := 1.0 / d;
      assert v * d == 1.0;
      assert t >= 0.0 ==> d >= 1.0;
      Some(v)
  }

  /** Affordability strictly decreases as tuition grows (where it is defined and positive). */
  lemma AffordabilityDecreasing(t1: real, t2: real)
    requires -TuitionScale < t1 < t2
    ensures AffordabilityTerm(t2).Some? && AffordabilityTerm(t1).Some?
    ensures AffordabilityTerm(t2).value < AffordabilityTerm(t1).value
  {
    var d1 := 1.0 + t1 / TuitionScale;
    var d2 := 1.0 + t2 / TuitionScale;
    assert 0.0 < d1 < d2;
    assert AffordabilityTerm(t1) == Some(1.0 / d1);
    assert AffordabilityTerm(t2) == Some(1.0 / d2);
    ReciprocalDecreasing(d1, d2);
  }

  /** Taking the reciprocal reverses the order of positive reals. */
  lemma ReciprocalDecreasing(d1: real, d2: real)
    requires 0.0 < d1 < d2
    ensures 1.0 / d2 < 1.0 / d1
  {
    var v1, v2 := 1.0 / d1, 1.0 / d2;
    assert v1 * d1 == 1.0 && v2 * d2 == 1.0;
    assert v1 > 0.0 && v2 > 0.0;
    assert v1 * v2 * (d2 - d1) == v1 * (v2 * d2) - v2 * (v1 * d1) == v1 - v2;
    assert v1 * v2 > 0.0;
    assert (v1 * v2) * (d2 - d1) > 0.0;
  }

  /** Size attractiveness `min(1, population / 30000)`. */
  function SizeTerm(population: int): (r: real)
    ensures r <= 1.0
    ensures population >= 0 ==> 0.0 <= r
    ensures population < 0 ==> r < 0.0
    ensures population as real >= FullSize <==> r == 1.0
    ensures population as real < FullSize ==> r * FullSize == population as real
  {
    var x := population as real / FullSize;
    if 1.0 < x then 1.0 else x
  }

  /**
   * `rank_score()`: the category's weighted sum of the three terms, or `None`
   * where Python raises on the affordability division.
   */
  function RankScore(i: Institution): (r: Option<real>)
    ensures r.None? <==> i.tuition == -TuitionScale
    ensures i.tuition >= 0.0 && i.population >= 0 ==> r.Some? && 0.0 <= r.value <= 1.0
    ensures r.Some? ==> (r.value ==
      WeightsOf(i.category).accreditation * AccreditationTerm(i.accreditation)
      + WeightsOf(i.category).affordability * AffordabilityTerm(i.tuition).value
      + WeightsOf(i.category).size * SizeTerm(i.population))
  {
    var w := WeightsOf(i.category);
    match AffordabilityTerm(i.tuition)
    case None => None
    case Some(aff) =>
      Some(w.accreditation * AccreditationTerm(i.accreditation)
           + w.affordability * aff
           + w.size * SizeTerm(i.population))
  }

  /**
   * For a non-negative tuition and population, the score is exactly 1 iff every
   * term is saturated: free tuition, accreditation of at least 100 and a
   * population of at least 30000.
   */
  lemma PerfectScore(i: Institution)
    requires i.tuition >= 0.0 && i.population >= 0
    ensures RankScore(i) == Some(1.0)
      <==> i.tuition == 0.0 && i.accreditation >= 100.0 && i.population >= 30_000
  {
    var w := WeightsOf(i.category);
    var acc := AccreditationTerm(i.accreditation);
    var aff := AffordabilityTerm(i.tuition).value;
    var size := SizeTerm(i.population);
    assert RankScore(i) == Some(w.accreditation * acc + w.affordability * aff + w.size * size);
    if w.accreditation * acc + w.affordability * aff + w.size * size == 1.0 {
      assert w.accreditation * (1.0 - acc) + w.affordability * (1.0 - aff) + w.size * (1.0 - size) == 0.0;
      assert w.accreditation * (1.0 - acc) >= 0.0;
      assert w.affordability * (1.0 - aff) >= 0.0;
      assert w.size * (1.0 - size) >= 0.0;
      assert acc == 1.0 && aff == 1.0 && size == 1.0;
    }
  }

  /** A higher accreditation score never lowers the rank score. */
  lemma ScoreMonotoneInAccreditation(i: Institution, a: real)
    requires i.accreditation <= a
    ensures RankScore(i).Some? ==> RankScore(i.(accreditation := a)).Some?
    ensures RankScore(i).Some? ==> RankScore(i).value <= RankScore(i.(accreditation := a)).value
  {
    var w := WeightsOf(i.category);
    var lo := AccreditationTerm(i.accreditation);
    var hi := AccreditationTerm(a);
    assert lo <= hi;
    assert w.accreditation * lo <= w.accreditation * hi;
  }

  /**
   * A negative tuition above minus one million makes affordability exceed 1,
   * so a saturated institution then scores above 1: the [0, 1] bound needs a
   * non-negative tuition.
   */
  lemma NegativeTuitionScoresAboveOne(i: Institution)
    requires -TuitionScale < i.tuition < 0.0
    requires i.accreditation >= 100.0 && i.population as real >= FullSize
    ensures RankScore(i).Some? && RankScore(i).value > 1.0
  {
    var w := WeightsOf(i.category);
    var d := 1.0 + i.tuition / TuitionScale;
    assert 0.0 < d < 1.0;
    var aff := 1.0 / d;
    assert aff * d == 1.0;
    assert aff > 1.0;
    assert w.affordability * aff > w.affordability;
  }

  /**
   * The scenario of a university with free tuition, full accreditation and
   * 30000 students: 0.60 + 0.20 + 0.20 == 1.
   */
  lemma UniversityScenario(name: string, ownership: string, lga: string, courses: seq<string>)
    ensures RankScore(Institution(name, ownership, lga, courses, 0.0, 100.0, 30_000, University)) == Some(1.0)
  {
    PerfectScore(Institution(name, ownership, lga, courses, 0.0, 100.0, 30_000, University));
  }

  /**
   * The categories rank the same unsaturated institution differently: tuition
   * of one million halves affordability, so with full accreditation and size a
   * university scores 0.60 + 0.10 + 0.20, a polytechnic 0.45 + 0.175 + 0.20 and
   * a college 0.50 + 0.20 + 0.10.
   */
  lemma CategoryScenario(name: string, ownership: string, lga: string, courses: seq<string>)
    ensures RankScore(Institution(name, ownership, lga, courses, 1_000_000.0, 100.0, 30_000, University)) == Some(0.90)
    ensures RankScore(Institution(name, ownership, lga, courses, 1_000_000.0, 100.0, 30_000, Polytechnic)) == Some(0.825)
    ensures RankScore(Institution(name, ownership, lga, courses, 1_000_000.0, 100.0, 30_000, College)) == Some(0.80)
  {
    assert AffordabilityTerm(1_000_000.0) == Some(0.5);
    assert AccreditationTerm(100.0) == 1.0;
    assert SizeTerm(30_000) == 1.0;
  }

  /** Some course, lower-cased, contains `needle`. */
  function AnyCourseContains(courses: seq<string>, needle: string): (r: bool)
    ensures r <==> exists j :: 0 <= j < |courses| && Contains(Lower(courses[j]), needle)
  {
    if courses == [] then false
    else if Contains(Lower(courses[0]), needle) then true
    else
      assert forall j :: 1 <= j < |courses| ==> courses[j] == courses[1..][j - 1];
      AnyCourseContains(courses[1..], needle)
  }

  /**
   * `offers_course(keyword)`: the keyword, stripped and lower-cased, is a
   * substring of some lower-cased course name.
   */
  function OffersCourse(i: Institution, keyword: string): (r: bool)
    ensures r <==> exists j :: 0 <= j < |i.courses| && Contains(Lower(i.courses[j]), Lower(Trim(keyword)))
  {
    AnyCourseContains(i.courses, Lower(Trim(keyword)))
  }

  /**
   * A keyword that strips to nothing matches exactly the institutions that
   * list at least one course: `any` over no courses is false.
   */
  lemma BlankKeyword(i: Institution, keyword: string)
    requires AllSpace(keyword)
    ensures OffersCourse(i, keyword) <==> |i.courses| > 0
  {
    assert Lower(Trim(keyword)) == "";
    if |i.courses| > 0 {
      ContainsEmpty(Lower(i.courses[0]));
    }
  }

  /**
   * The scenario of the course-keyword filter: "computer" is offered by an
   * institution teaching "Computer Science" and not by one teaching only "Law".
   * Here and in the helpers below the literals are parameters pinned by
   * `requires`: written into the contract directly, they make the verifier
   * evaluate `Lower` and `Trim` on them in full.
   */
  lemma ComputerScenario(i: Institution, keyword: string)
    requires keyword == "computer"
    ensures i.courses == ["Computer Science"] ==> OffersCourse(i, keyword)
    ensures i.courses == ["Law"] ==> !OffersCourse(i, keyword)
  {
    ComputerKeyword(keyword);
    if i.courses == ["Computer Science"] {
      ComputerScienceCourse(i.courses[0], keyword);
    }
    if i.courses == ["Law"] {
      LawCourse(i.courses[0], keyword);
    }
  }

  /** The keyword "computer" is already stripped and lower-case. */
  lemma ComputerKeyword(keyword: string)
    requires keyword == "computer"
    ensures Lower(Trim(keyword)) == keyword
  {
    LetterNotListed(keyword[0] as int, SpaceCodes);
    LetterNotListed(keyword[7] as int, SpaceCodes);
    assert IsTrimmed(keyword);
    forall k | 0 <= k < |keyword|
      ensures !IsUpper(keyword[k])
    {
    }
    LowerOfLower(keyword);
  }

  /** "computer" occurs at the start of lower-cased "Computer Science". */
  lemma ComputerScienceCourse(course: string, keyword: string)
    requires course == "Computer Science" && keyword == "computer"
    ensures Contains(Lower(course), keyword)
  {
    LowerStartsWith(course, keyword);
  }

  /** A lower-case needle whose letters start `hay` up to case occurs in lower-cased `hay`. */
  lemma LowerStartsWith(hay: string, needle: string)
    requires |needle| <= |hay|
    requires forall k :: 0 <= k < |needle| ==> LowerChar(hay[k]) == needle[k]
    ensures Contains(Lower(hay), needle)
  {
    var lc := Lower(hay);
    assert lc[..|needle|] == needle;
    assert OccursAt(lc, needle, 0);
  }

  /** "computer" does not occur in lower-cased "Law". */
  lemma LawCourse(course: string, keyword: string)
    requires course == "Law" && keyword == "computer"
    ensures !Contains(Lower(course), keyword)
  {
  }
}

=== FILE: loader.dfy ===
/**
 * The row-to-institution mapping of `InstitutionDirectory.from_csv`: text
 * cells are stripped (ownership also lower-cased), the course cell is split
 * on `|` into its non-blank, stripped pieces, blank numeric cells read as
 * zero, and the category cell selects the kind of institution, defaulting to
 * a university.
 */
module Loader {
  import opened Optional
  import opened Text
  import opened Institutions
  import opened DirectoryEngine
  import opened Filtering

  /**
   * One CSV row once its numeric cells are parsed. `None` stands for a cell
   * that is missing or empty, which `from_csv` reads as the empty string or zero.
   */
  datatype Row = Row(
    category: Option<string>,
    name: string,
    ownership: string,
    lga: string,
    courses: Option<string>,
    tuition: Option<real>,
    accreditation: Option<real>,
    population: Option<int>)

  /** The separator between courses in the course cell. */
  const CourseSeparator: char := '|'

  /** The spellings that select a college of education. */
  const CollegeNames: seq<string> := ["college", "college_of_education", "college of education"]

  /**
   * The category cell, stripped and lower-cased; a missing cell reads as
   * empty. The key is the stripped cell with every capital made small.
   */
  function CategoryKey(raw: Option<string>): (key: string)
    ensures IsLower(key) && IsTrimmed(key)
    ensures SameIgnoringCase(key, Trim(raw.GetOr("")))
  {
    var t := Trim(raw.GetOr(""));
    LowerKeepsTrimmed(t);
    LowerSameIgnoringCase(t);
    Lower(t)
  }

  /** Lower-casing never touches whitespace, so a stripped string stays stripped. */
  lemma LowerKeepsTrimmed(s: string)
    requires IsTrimmed(s)
    ensures IsTrimmed(Lower(s))
  {
    if s != [] {
      assert Lower(s)[0] == LowerChar(s[0]);
      assert Lower(s)[|s| - 1] == LowerChar(s[|s| - 1]);
    }
  }

  /**
   * The category dispatch on a key: a key naming a category selects it, the
   * college spellings select a college, and anything else, blank included,
   * a university.
   */
  function CategoryOfKey(key: string): (c: Category)
    ensures || key == Label(c)
            || (c == College && key in CollegeNames)
            || (c == University && key != Label(Polytechnic) && key !in CollegeNames)
    ensures key == Label(Polytechnic) ==> c == Polytechnic
    ensures key in CollegeNames ==> c == College
  {
    if key == Label(University) then University
    else if key == Label(Polytechnic) then Polytechnic
    else if key in CollegeNames then College
    else University
  }

  /**
   * The category a row's category cell selects: a polytechnic exactly for the
   * key "polytechnic", a college exactly for the college spellings, and a
   * university for everything else.
   */
  function ParseCategory(raw: Option<string>): (c: Category)
    ensures c == Polytechnic <==> CategoryKey(raw) == Label(Polytechnic)
    ensures c == College <==> CategoryKey(raw) in CollegeNames
  {
    assert Label(College) == CollegeNames[0];
    CategoryOfKey(CategoryKey(raw))
  }

  /** A label read from the category cell is its own key. */
  lemma LabelIsKey(c: Category)
    ensures CategoryKey(Some(Label(c))) == Label(c)
  {
    LabelWord(Label(c));
    KeyIsKey(Label(c));
  }

  /** A category's own label, written in the category cell, selects it again. */
  lemma ParseLabel(c: Category)
    ensures ParseCategory(Some(Label(c))) == c
  {
    LabelIsKey(c);
    LabelInjective(c, University);
    LabelInjective(c, Polytechnic);
    assert Label(College) == CollegeNames[0];
  }

  /** The category cell is read without regard to case or surrounding whitespace. */
  lemma ParseCategoryNormalised(raw: Option<string>)
    ensures ParseCategory(Some(CategoryKey(raw))) == ParseCategory(raw)
  {
    KeyIsKey(CategoryKey(raw));
  }

  /** A stripped, lower-case cell is its own key. */
  lemma KeyIsKey(key: string)
    requires IsLower(key) && IsTrimmed(key)
    ensures CategoryKey(Some(key)) == key
  {
    LowerOfLower(key);
  }

  /**
   * The category cell is read without regard to surrounding whitespace or
   * the ASCII case of its letters: padding a cell with whitespace and
   * changing the case of its letters selects the same category.
   */
  lemma {:induction false} CategoryIgnoresCaseAndPadding(pre: string, cell: string, post: string, other: string)
    requires AllSpace(pre) && AllSpace(post)
    requires SameIgnoringCase(cell, other)
    ensures ParseCategory(Some(pre + cell + post)) == ParseCategory(Some(other))
  {
    TrimPadded(pre, cell, post);
    LowerTrim(cell);
    LowerTrim(other);
    LowerEqual(cell, other);
  }

  /** A padded, mixed-case spelling of a category's label selects that category. */
  lemma {:induction false} PaddedLabel(pre: string, cell: string, post: string, c: Category)
    requires AllSpace(pre) && AllSpace(post)
    requires SameIgnoringCase(cell, Label(c))
    ensures ParseCategory(Some(pre + cell + post)) == c
  {
    CategoryIgnoresCaseAndPadding(pre, cell, post, Label(c));
    ParseLabel(c);
  }

  /** A missing or blank category cell yields a university. */
  lemma BlankCategoryIsUniversity(raw: Option<string>)
    requires raw.None? || AllSpace(raw.value)
    ensures ParseCategory(raw) == University
  {
    assert Trim(raw.GetOr("")) == [];
    assert CategoryKey(raw) == [];
  }

  /** A course list as `from_csv` produces it: non-blank, stripped names without the separator. */
  predicate CleanCourses(cs: seq<string>) {
    forall j :: 0 <= j < |cs| ==> cs[j] != [] && IsTrimmed(cs[j]) && CourseSeparator !in cs[j]
  }

  /**
   * The stripped pieces that are not blank, in order: of the stripped pieces
   * it keeps every non-blank one, each as often as it occurs, and nothing else.
   */
  function KeepNonBlank(pieces: seq<string>): (r: seq<string>)
    requires forall j :: 0 <= j < |pieces| ==> CourseSeparator !in pieces[j]
    ensures CleanCourses(r)
    ensures |r| <= |pieces|
    ensures SubseqOf(r, TrimAll(pieces))
    ensures forall x :: multiset(r)[x] == if x == [] then 0 else multiset(TrimAll(pieces))[x]
    ensures forall x :: x in r ==> x in TrimAll(pieces)
  {
    if pieces == [] then []
    else
      var rest := KeepNonBlank(pieces[1..]);
      var t := Trim(pieces[0]);
      var all := TrimAll(pieces);
      assert all == [t] + TrimAll(pieces[1..]);
      assert all[1..] == TrimAll(pieces[1..]);
      if t == [] then rest
      else
        TrimKeepsOut(pieces[0], CourseSeparator);
        ConsClean(t, rest);
        assert ([t] + rest)[1..] == rest;
        [t] + rest
  }

  /** Each piece stripped. */
  function TrimAll(pieces: seq<string>): (r: seq<string>)
    ensures |r| == |pieces|
    ensures forall j :: 0 <= j < |pieces| ==> r[j] == Trim(pieces[j])
  {
    if pieces == [] then [] else [Trim(pieces[0])] + TrimAll(pieces[1..])
  }

  /** A clean course in front of a clean list keeps the list clean. */
  lemma ConsClean(t: string, rest: seq<string>)
    requires t != [] && IsTrimmed(t) && CourseSeparator !in t
    requires CleanCourses(rest)
    ensures CleanCourses([t] + rest)
  {
    var r := [t] + rest;
    forall j | 0 <= j < |r|
      ensures r[j] != [] && IsTrimmed(r[j]) && CourseSeparator !in r[j]
    {
      if j > 0 {
        assert r[j] == rest[j - 1];
      }
    }
  }

  /** Stripping only removes characters, so it adds none that was absent. */
  lemma TrimKeepsOut(s: string, c: char)
    requires c !in s
    ensures c !in Trim(s)
  {
    if c in Trim(s) {
      TrimChars(s, c);
    }
  }

  /**
   * `[c.strip() for c in (cell or "").split("|") if c.strip()]`: every
   * non-blank stripped piece of the cell, in order, with its repeats.
   */
  function SplitCourses(cell: Option<string>): (r: seq<string>)
    ensures CleanCourses(r)
    ensures SubseqOf(r, TrimAll(Split(cell.GetOr(""), CourseSeparator)))
    ensures forall x :: multiset(r)[x] == (if x == [] then 0 else multiset(TrimAll(Split(cell.GetOr(""), CourseSeparator)))[x])
  {
    var pieces := Split(cell.GetOr(""), CourseSeparator);
    KeepNonBlank(pieces)
  }

  /** Clean pieces pass through unchanged. */
  lemma {:induction false} KeepNonBlankClean(cs: seq<string>)
    requires CleanCourses(cs)
    ensures KeepNonBlank(cs) == cs
  {
    if cs != [] {
      assert CleanCourses(cs[1..]) by {
        assert forall j :: 0 <= j < |cs[1..]| ==> cs[1..][j] == cs[j + 1];
      }
      KeepNonBlankClean(cs[1..]);
      assert Trim(cs[0]) == cs[0];
      assert cs == [cs[0]] + cs[1..];
    }
  }

  /** Writing a clean course list into one cell and reading it back gives the list. */
  lemma CoursesRoundTrip(cs: seq<string>)
    requires CleanCourses(cs)
    ensures SplitCourses(Some(Join(cs, CourseSeparator))) == cs
  {
    if cs == [] {
      assert Split("", CourseSeparator) == [""];
      assert Trim("") == "";
    } else {
      SplitJoin(cs, CourseSeparator);
      KeepNonBlankClean(cs);
    }
  }

  /** A missing or empty course cell lists no course. */
  lemma NoCourses(cell: Option<string>)
    requires cell.None? || cell.value == ""
    ensures SplitCourses(cell) == []
  {
    assert cell.GetOr("") == "";
    assert Split("", CourseSeparator) == [""];
    assert Trim("") == "";
  }

  /** An institution as `from_csv` builds it: stripped text, lower-case ownership, clean courses. */
  predicate Loaded(i: Institution) {
    && IsTrimmed(i.name)
    && IsTrimmed(i.lga)
    && IsTrimmed(i.ownership) && IsLower(i.ownership)
    && CleanCourses(i.courses)
  }

  /** The body of the `from_csv` loop for one row. */
  function FromRow(row: Row): (i: Institution)
    ensures Loaded(i)
    ensures i.name == Trim(row.name) && i.lga == Trim(row.lga)
    ensures i.ownership == Lower(Trim(row.ownership))
    ensures i.courses == SplitCourses(row.courses)
    ensures i.category == ParseCategory(row.category)
    ensures i.tuition == (if row.tuition.Some? then row.tuition.value else 0.0)
    ensures i.accreditation == (if row.accreditation.Some? then row.accreditation.value else 0.0)
    ensures i.population == (if row.population.Some? then row.population.value else 0)
  {
    var owner := Trim(row.ownership);
    LowerKeepsTrimmed(owner);
    Institution(
      Trim(row.name),
      Lower(owner),
      Trim(row.lga),
      SplitCourses(row.courses),
      row.tuition.GetOr(0.0),
      row.accreditation.GetOr(0.0),
      row.population.GetOr(0),
      ParseCategory(row.category))
  }

  /** The row an institution would be written as. */
  function ToRow(i: Institution): Row {
    Row(Some(Label(i.category)), i.name, i.ownership, i.lga,
        Some(Join(i.courses, CourseSeparator)),
        Some(i.tuition), Some(i.accreditation), Some(i.population))
  }

  /** Every loaded institution survives being written as a row and read back. */
  lemma LoadRoundTrip(i: Institution)
    requires Loaded(i)
    ensures FromRow(ToRow(i)) == i
  {
    ParseLabel(i.category);
    CoursesRoundTrip(i.courses);
    LowerOfLower(i.ownership);
    assert Trim(i.ownership) == i.ownership;
  }

  /** `from_csv`: one institution per row, in row order, each one normalised as `FromRow` leaves it. */
  function FromRows(rows: seq<Row>): (d: InstitutionDirectory)
    ensures |d.institutions| == |rows|
    ensures forall k :: 0 <= k < |rows| ==> Loaded(d.institutions[k])
    ensures forall k :: 0 <= k < |rows| ==> d.institutions[k] == FromRow(rows[k])
  {
    InstitutionDirectory(seq(|rows|, k requires 0 <= k < |rows| => FromRow(rows[k])))
  }
}

=== FILE: optional.dfy ===
/** An optional value: stands for Python's `None` next to a present value. */
module Optional {

  datatype Option<+T> = None | Some(value: T) {

    /** The present value, or `default` when absent (Python's `x or default`). */
    function GetOr(default: T): T {
      match this
      case Some(v) => v
      case None => default
    }
  }
}

=== FILE: ordering.dfy ===
/**
 * The five sort keys of the directory and the order on their values:
 * numbers by magnitude, names by Python's code-point string comparison.
 */
module Ordering {
  import opened Text
  import opened Institutions

  /** The value an institution is sorted on: a number or a (lower-cased) name. */
  datatype Key = Num(n: real) | Word(w: string)

  /** `a` is a prefix of `b`. */
  predicate IsPrefix(a: string, b: string) {
    |a| <= |b| && b[..|a|] == a
  }

  /** `a` and `b` agree before position `k`, and there `a` has the smaller code point. */
  predicate FirstDifferenceLess(a: string, b: string, k: int) {
    0 <= k < |a| && k < |b| && a[..k] == b[..k] && a[k] < b[k]
  }

  /**
   * Python's `a <= b` on strings: lexicographic on code points. A string is at
   * most every string it is a prefix of.
   */
  predicate LexLe(a: string, b: string)
    ensures IsPrefix(a, b) ==> LexLe(a, b)
  {
    if a == [] then true
    else if b == [] then false
    else if a[0] != b[0] then a[0] < b[0]
    else LexLe(a[1..], b[1..])
  }

  /**
   * `a <= b` holds exactly when `a` is a prefix of `b` or the first position
   * where they differ holds the smaller code point in `a`.
   */
  lemma {:induction false} LexLeFirstDifference(a: string, b: string)
    ensures LexLe(a, b) <==> IsPrefix(a, b) || exists k :: FirstDifferenceLess(a, b, k)
  {
    if a == [] {
    } else if b == [] {
      assert !IsPrefix(a, b);
      assert forall k :: !FirstDifferenceLess(a, b, k);
    } else if a[0] != b[0] {
      assert !IsPrefix(a, b);
      assert forall k :: FirstDifferenceLess(a, b, k) ==> k == 0;
      if a[0] < b[0] {
        assert FirstDifferenceLess(a, b, 0);
      }
    } else {
      var a', b' := a[1..], b[1..];
      LexLeFirstDifference(a', b');
      assert IsPrefix(a, b) <==> IsPrefix(a', b') by {
        if IsPrefix(a', b') {
          assert b[..|a|] == [b[0]] + b'[..|a'|];
          assert a == [a[0]] + a';
        }
        if IsPrefix(a, b) {
          assert b'[..|a'|] == b[..|a|][1..];
        }
      }
      if k :| FirstDifferenceLess(a, b, k) {
        assert k > 0;
        assert a'[..k - 1] == a[..k][1..] && b'[..k - 1] == b[..k][1..];
        assert FirstDifferenceLess(a', b', k - 1);
      }
      if k :| FirstDifferenceLess(a', b', k) {
        assert a[..k + 1] == [a[0]] + a'[..k] && b[..k + 1] == [b[0]] + b'[..k];
        assert FirstDifferenceLess(a, b, k + 1);
      }
    }
  }

  /** String comparison is a total order: reflexive, total, antisymmetric and transitive. */
  lemma {:induction false} LexLeReflexive(a: string)
    ensures LexLe(a, a)
  {
    if a != [] {
      LexLeReflexive(a[1..]);
    }
  }

  lemma {:induction false} LexLeTotal(a: string, b: string)
    ensures LexLe(a, b) || LexLe(b, a)
  {
    if a != [] && b != [] && a[0] == b[0] {
      LexLeTotal(a[1..], b[1..]);
    }
  }

  lemma {:induction false} LexLeAntisymmetric(a: string, b: string)
    requires LexLe(a, b) && LexLe(b, a)
    ensures a == b
  {
    if a != [] && b != [] {
      LexLeAntisymmetric(a[1..], b[1..]);
      assert a == [a[0]] + a[1..] && b == [b[0]] + b[1..];
    }
  }

  lemma {:induction false} LexLeTransitive(a: string, b: string, c: string)
    requires LexLe(a, b) && LexLe(b, c)
    ensures LexLe(a, c)
  {
    if a != [] && b != [] && c != [] && a[0] == b[0] == c[0] {
      LexLeTransitive(a[1..], b[1..], c[1..]);
    }
  }

  /**
   * The order on key values. Within one sort key all values have the same
   * shape; across shapes numbers come first, which keeps the order total.
   */
  predicate KeyLe(a: Key, b: Key) {
    match (a, b)
    case (Num(x), Num(y)) => x <= y
    case (Word(x), Word(y)) => LexLe(x, y)
    case (Num(_), Word(_)) => true
    case (Word(_), Num(_)) => false
  }

  /** So is the order on key values. */
  lemma KeyLeReflexive(a: Key)
    ensures KeyLe(a, a)
  {
    if a.Word? {
      LexLeReflexive(a.w);
    }
  }

  lemma KeyLeTotal(a: Key, b: Key)
    ensures KeyLe(a, b) || KeyLe(b, a)
  {
    if a.Word? && b.Word? {
      LexLeTotal(a.w, b.w);
    }
  }

  lemma KeyLeAntisymmetric(a: Key, b: Key)
    requires KeyLe(a, b) && KeyLe(b, a)
    ensures a == b
  {
    if a.Word? && b.Word? {
      LexLeAntisymmetric(a.w, b.w);
    }
  }

  lemma KeyLeTransitive(a: Key, b: Key, c: Key)
    requires KeyLe(a, b) && KeyLe(b, c)
    ensures KeyLe(a, c)
  {
    if a.Word? && b.Word? && c.Word? {
      LexLeTransitive(a.w, b.w, c.w);
    }
  }

  /** The keys `sort` accepts. */
  datatype SortKey = ByRank | ByTuition | ByAccreditation | ByName | ByPopulation

  /** The name a sort key is selected by. */
  function SortKeyName(k: SortKey): string {
    match k
    case ByRank => "rank"
    case ByTuition => "tuition"
    case ByAccreditation => "accreditation"
    case ByName => "name"
    case ByPopulation => "population"
  }

  /** Distinct keys have distinct names. */
  lemma SortKeyNameInjective()
    ensures forall a: SortKey, b: SortKey :: SortKeyName(a) == SortKeyName(b) ==> a == b
  {
    forall a: SortKey, b: SortKey | SortKeyName(a) == SortKeyName(b)
      ensures a == b
    {
      var x, y := SortKeyName(a), SortKeyName(b);
      assert |x| == |y| && x[0] == y[0];
    }
  }

  /** Selecting a key by name; any other name falls back to the rank score. */
  function ParseSortKey(name: string): (k: SortKey)
    ensures forall key: SortKey :: name == SortKeyName(key) ==> k == key
    ensures (forall key: SortKey :: name != SortKeyName(key)) ==> k == ByRank
  {
    SortKeyNameInjective();
    if name == SortKeyName(ByTuition) then ByTuition
    else if name == SortKeyName(ByAccreditation) then ByAccreditation
    else if name == SortKeyName(ByName) then ByName
    else if name == SortKeyName(ByPopulation) then ByPopulation
    else ByRank
  }

  /**
   * The key value of an institution: the rank score (where it is defined),
   * tuition, accreditation, lower-cased name, or population.
   */
  function KeyOf(k: SortKey, i: Institution): (r: Key)
    ensures r.Word? <==> k == ByName
    ensures r.Word? ==> IsLower(r.w) && SameIgnoringCase(r.w, i.name)
  {
    LowerSameIgnoringCase(i.name);
    match k
    case ByRank => Num(RankScore(i).GetOr(0.0))
    case ByTuition => Num(i.tuition)
    case ByAccreditation => Num(i.accreditation)
    case ByName => Word(Lower(i.name))
    case ByPopulation => Num(i.population as real)
  }

  /** The key function `sort` hands to `sorted`. */
  function KeyFn(k: SortKey): (f: Institution -> Key)
    ensures forall i :: f(i) == KeyOf(k, i)
  {
    i => KeyOf(k, i)
  }

  /** Names that differ only in case get the same name key, so `sort` by name ignores case. */
  lemma NameKeyIgnoresCase(a: Institution, b: Institution)
    ensures KeyOf(ByName, a) == KeyOf(ByName, b) <==> SameIgnoringCase(a.name, b.name)
  {
    LowerEqual(a.name, b.name);
  }
}

=== FILE: sorting.dfy ===
/**
 * A stable sort of a sequence on one key, ascending or descending, with
 * the behaviour of Python's `sorted(xs, key=..., reverse=...)`: the result
 * is ordered by the key and elements with equal keys keep their input
 * order in both directions. The key function is a parameter: the directory
 * sorts institutions on one of the keys of `Ordering`.
 */
module Sorting {
  import opened Ordering

  /** `a` may come before `b` in the output: its key is no greater (ascending) or no smaller (descending). */
  predicate InOrder<T>(key: T -> Key, descending: bool, a: T, b: T) {
    if descending then KeyLe(key(b), key(a)) else KeyLe(key(a), key(b))
  }

  /** Any two elements can be put in order one way or the other. */
  lemma InOrderTotal<T>(key: T -> Key, descending: bool, a: T, b: T)
    ensures InOrder(key, descending, a, b) || InOrder(key, descending, b, a)
  {
    KeyLeTotal(key(a), key(b));
  }

  /** Being in order carries over through a middle element. */
  lemma InOrderTransitive<T>(key: T -> Key, descending: bool, a: T, b: T, c: T)
    requires InOrder(key, descending, a, b) && InOrder(key, descending, b, c)
    ensures InOrder(key, descending, a, c)
  {
    if descending {
      KeyLeTransitive(key(c), key(b), key(a));
    } else {
      KeyLeTransitive(key(a), key(b), key(c));
    }
  }

  /** Equal keys may stand in either order. */
  lemma InOrderEqualKeys<T>(key: T -> Key, descending: bool, a: T, b: T)
    requires key(a) == key(b)
    ensures InOrder(key, descending, a, b)
  {
    KeyLeReflexive(key(a));
  }

  /** Every earlier element may come before every later one. */
  predicate Sorted<T>(key: T -> Key, descending: bool, s: seq<T>) {
    forall i, j :: 0 <= i < j < |s| ==> InOrder(key, descending, s[i], s[j])
  }

  /**
   * The elements of `s` whose key is `v`, in their order in `s`. A sort
   * is stable when it leaves every such class as it was.
   */
  function Class<T(==)>(s: seq<T>, key: T -> Key, v: Key): seq<T> {
    if s == [] then []
    else (if key(s[0]) == v then [s[0]] else []) + Class(s[1..], key, v)
  }

  /** The members of a class are exactly the elements of `s` with that key. */
  lemma {:induction false} ClassMembers<T>(s: seq<T>, key: T -> Key, v: Key, x: T)
    ensures x in Class(s, key, v) <==> x in s && key(x) == v
  {
    if s != [] {
      ClassMembers(s[1..], key, v, x);
      assert s == [s[0]] + s[1..];
    }
  }

  /**
   * Puts `x` in front of the first element it may precede, that is, after
   * every element that must come before it and before its equals.
   */
  function Insert<T(==)>(key: T -> Key, descending: bool, x: T, s: seq<T>): (r: seq<T>)
    ensures multiset(r) == multiset(s) + multiset{x}
  {
    if s == [] then [x]
    else if InOrder(key, descending, x, s[0]) then [x] + s
    else
      assert s == [s[0]] + s[1..];
      [s[0]] + Insert(key, descending, x, s[1..])
  }

  /** Inserting into a sorted sequence keeps it sorted. */
  lemma {:induction false} InsertSorted<T>(key: T -> Key, descending: bool, x: T, s: seq<T>)
    requires Sorted(key, descending, s)
    ensures Sorted(key, descending, Insert(key, descending, x, s))
  {
    if s == [] {
    } else if InOrder(key, descending, x, s[0]) {
      var r := [x] + s;
      forall i, j | 0 <= i < j < |r|
        ensures InOrder(key, descending, r[i], r[j])
      {
        if i == 0 && j > 1 {
          InOrderTransitive(key, descending, x, s[0], s[j - 1]);
        }
      }
    } else {
      var t := Insert(key, descending, x, s[1..]);
      InsertSorted(key, descending, x, s[1..]);
      InOrderTotal(key, descending, x, s[0]);
      var r := [s[0]] + t;
      forall i, j | 0 <= i < j < |r|
        ensures InOrder(key, descending, r[i], r[j])
      {
        if i == 0 {
          assert r[j] in multiset(s[1..]) + multiset{x};
          if r[j] != x {
            var m :| 0 <= m < |s[1..]| && s[1..][m] == r[j];
            assert s[m + 1] == r[j];
          }
        }
      }
    }
  }

  /** The class of a sequence with a known first element. */
  lemma ClassCons<T>(y: T, t: seq<T>, key: T -> Key, v: Key)
    ensures Class([y] + t, key, v) == (if key(y) == v then [y] else []) + Class(t, key, v)
  {
    assert ([y] + t)[1..] == t;
  }

  /** Insertion places `x` ahead of everything with its key: each class gains `x` at its front. */
  lemma {:induction false} InsertStable<T>(key: T -> Key, descending: bool, x: T, s: seq<T>, v: Key)
    ensures Class(Insert(key, descending, x, s), key, v) == Class([x] + s, key, v)
  {
    if s != [] && !InOrder(key, descending, x, s[0]) {
      var t := Insert(key, descending, x, s[1..]);
      assert Insert(key, descending, x, s) == [s[0]] + t;
      InsertStable(key, descending, x, s[1..], v);
      ClassCons(s[0], t, key, v);
      ClassCons(x, s[1..], key, v);
      ClassCons(x, s, key, v);
      ClassCons(s[0], s[1..], key, v);
      assert s == [s[0]] + s[1..];
      if key(x) == v && key(s[0]) == v {
        InOrderEqualKeys(key, descending, x, s[0]);
      }
      SwapOneEmpty(if key(x) == v then [x] else [], if key(s[0]) == v then [s[0]] else [], Class(s[1..], key, v));
    }
  }

  /** Two pieces of which one is empty can be put in either order. */
  lemma SwapOneEmpty<T>(a: seq<T>, b: seq<T>, rest: seq<T>)
    requires a == [] || b == []
    ensures b + (a + rest) == a + (b + rest)
  {
    if a == [] {
      assert a + rest == rest;
      assert b + rest == a + (b + rest);
    } else {
      assert b + rest == rest;
      assert b + (a + rest) == a + rest;
    }
  }

  /** An inserted element goes in front of the elements of `s` with an equal key; every class keeps its order. */
  lemma InsertKeepsClasses<T>(key: T -> Key, descending: bool, x: T, s: seq<T>)
    ensures forall v :: Class(Insert(key, descending, x, s), key, v) == Class([x] + s, key, v)
  {
    forall v
      ensures Class(Insert(key, descending, x, s), key, v) == Class([x] + s, key, v)
    {
      InsertStable(key, descending, x, s, v);
    }
  }

  /**
   * `sorted(xs, key, reverse=descending)`: a permutation of `xs`, ordered by
   * the key, and stable: each class of equal keys keeps its input order.
   */
  function SortOn<T(==)>(key: T -> Key, descending: bool, xs: seq<T>): (r: seq<T>)
    ensures multiset(r) == multiset(xs)
    ensures Sorted(key, descending, r)
    ensures forall v :: Class(r, key, v) == Class(xs, key, v)
  {
    if xs == [] then []
    else
      var t := SortOn(key, descending, xs[1..]);
      InsertSorted(key, descending, xs[0], t);
      assert xs == [xs[0]] + xs[1..];
      InsertKeepsClasses(key, descending, xs[0], t);
      Insert(key, descending, xs[0], t)
  }

  /**
   * Sortedness and stability determine the result: two sequences that are
   * both sorted on a key and have the same class for every key value are
   * equal. So `SortOn` is the only stable sort, and it agrees with any other.
   */
  lemma {:induction false} StableSortUnique<T>(key: T -> Key, descending: bool, a: seq<T>, b: seq<T>)
    requires Sorted(key, descending, a) && Sorted(key, descending, b)
    requires forall v :: Class(a, key, v) == Class(b, key, v)
    ensures a == b
    decreases |a| + |b|
  {
    if a == [] && b != [] {
      ClassMembers(b, key, key(b[0]), b[0]);
    } else if a != [] && b == [] {
      ClassMembers(a, key, key(a[0]), a[0]);
    } else if a != [] && b != [] {
      var va, vb := key(a[0]), key(b[0]);
      // a[0] has a counterpart in b with the same key, which b[0] may precede
      ClassMembers(a, key, va, a[0]);
      ClassMembers(b, key, va, a[0]);
      var i :| 0 <= i < |b| && b[i] == a[0];
      ClassMembers(b, key, vb, b[0]);
      ClassMembers(a, key, vb, b[0]);
      var j :| 0 <= j < |a| && a[j] == b[0];
      assert InOrder(key, descending, b[0], a[0]) by {
        if i > 0 { assert InOrder(key, descending, b[0], b[i]); }
        else { InOrderEqualKeys(key, descending, b[0], a[0]); }
      }
      assert InOrder(key, descending, a[0], b[0]) by {
        if j > 0 { assert InOrder(key, descending, a[0], a[j]); }
        else { InOrderEqualKeys(key, descending, a[0], b[0]); }
      }
      KeyLeAntisymmetric(va, vb);
      assert a == [a[0]] + a[1..] && b == [b[0]] + b[1..];
      ClassCons(a[0], a[1..], key, va);
      ClassCons(b[0], b[1..], key, va);
      assert Class(a, key, va)[0] == Class(b, key, va)[0];
      assert a[0] == b[0];
      forall v
        ensures Class(a[1..], key, v) == Class(b[1..], key, v)
      {
        var c := if key(a[0]) == v then [a[0]] else [];
        ClassCons(a[0], a[1..], key, v);
        ClassCons(b[0], b[1..], key, v);
        assert c + Class(a[1..], key, v) == c + Class(b[1..], key, v);
        assert Class(a[1..], key, v) == (c + Class(a[1..], key, v))[|c|..];
        assert Class(b[1..], key, v) == (c + Class(b[1..], key, v))[|c|..];
      }
      StableSortUnique(key, descending, a[1..], b[1..]);
    }
  }
}

=== FILE: text.dfy ===
/**
 * The handful of Python string operations the directory relies on:
 * `str.strip()`, `str.lower()`, the substring test `kw in s`, and
 * `str.split(sep)` for a one-character separator.
 */
module Text {

  /** Code points of the characters Python's `str.isspace()` accepts, which `str.strip()` removes. */
  const SpaceCodes: seq<int> := [
    0x09, 0x0A, 0x0B, 0x0C, 0x0D, 0x1C, 0x1D, 0x1E, 0x1F, 0x20, 0x85, 0xA0, 0x1680,
    0x2000, 0x2001, 0x2002, 0x2003, 0x2004, 0x2005, 0x2006, 0x2007, 0x2008, 0x2009, 0x200A,
    0x2028, 0x2029, 0x202F, 0x205F, 0x3000]

  predicate IsSpace(c: char) {
    Listed(c as int, SpaceCodes)
  }

  predicate Listed(n: int, codes: seq<int>) {
    codes != [] && (codes[0] == n || Listed(n, codes[1..]))
  }

  /** No whitespace code point lies among the ASCII letters. */
  lemma {:induction false} LetterNotListed(n: int, codes: seq<int>)
    requires 0x41 <= n <= 0x7A
    requires forall k :: 0 <= k < |codes| ==> codes[k] < 0x41 || 0x7A < codes[k]
    ensures !Listed(n, codes)
    decreases |codes|
  {
    if codes != [] {
      LetterNotListed(n, codes[1..]);
    }
  }

  predicate IsUpper(c: char) {
    'A' <= c <= 'Z'
  }

  /** The distance from an ASCII capital to its small letter. */
  const CaseGap: int := 'a' as int - 'A' as int

  /** ASCII lower-casing of one character: a capital becomes its small letter. */
  function LowerChar(c: char): (r: char)
    ensures !IsUpper(r)
    ensures IsUpper(c) ==> 'a' <= r <= 'z' && r as int == c as int + CaseGap
    ensures !IsUpper(c) ==> r == c
    ensures IsSpace(r) <==> IsSpace(c)
  {
    if IsUpper(c) then
      var r := (c as int + 32) as char;
      LetterNotListed(c as int, SpaceCodes);
      LetterNotListed(r as int, SpaceCodes);
      r
    else c
  }

  /** A string with no ASCII upper-case letter. */
  predicate IsLower(s: string) {
    forall k :: 0 <= k < |s| ==> !IsUpper(s[k])
  }

  /** `s.lower()` on ASCII letters. */
  function Lower(s: string): (r: string)
    ensures |r| == |s|
    ensures forall k :: 0 <= k < |s| ==> r[k] == LowerChar(s[k])
    ensures IsLower(r)
  {
    if s == [] then [] else [LowerChar(s[0])] + Lower(s[1..])
  }

  /** Lower-casing leaves an already lower-case string alone, so it is idempotent. */
  lemma LowerOfLower(s: string)
    requires IsLower(s)
    ensures Lower(s) == s
  {
    assert forall k :: 0 <= k < |s| ==> Lower(s)[k] == s[k];
  }

  /** `a` and `b` are the same character up to ASCII case. */
  predicate SameCharIgnoringCase(a: char, b: char) {
    || a == b
    || (IsUpper(a) && b as int == a as int + CaseGap)
    || (IsUpper(b) && a as int == b as int + CaseGap)
  }

  /** `s` and `t` differ at most in the ASCII case of their letters. */
  predicate SameIgnoringCase(s: string, t: string) {
    |s| == |t| && forall k :: 0 <= k < |s| ==> SameCharIgnoringCase(s[k], t[k])
  }

  /** Two characters lower-case alike exactly when they agree up to case. */
  lemma LowerCharEqual(a: char, b: char)
    ensures LowerChar(a) == LowerChar(b) <==> SameCharIgnoringCase(a, b)
  {
  }

  /** Two strings lower-case alike exactly when they agree up to case. */
  lemma {:induction false} LowerEqual(s: string, t: string)
    ensures Lower(s) == Lower(t) <==> SameIgnoringCase(s, t)
  {
    if Lower(s) == Lower(t) {
      forall k | 0 <= k < |s|
        ensures SameCharIgnoringCase(s[k], t[k])
      {
        assert Lower(s)[k] == Lower(t)[k];
        LowerCharEqual(s[k], t[k]);
      }
    }
    if SameIgnoringCase(s, t) {
      forall k | 0 <= k < |s|
        ensures Lower(s)[k] == Lower(t)[k]
      {
        LowerCharEqual(s[k], t[k]);
      }
    }
  }

  /** Lower-casing changes only the case of letters. */
  lemma {:induction false} LowerSameIgnoringCase(s: string)
    ensures SameIgnoringCase(Lower(s), s)
  {
    forall k | 0 <= k < |s|
      ensures SameCharIgnoringCase(Lower(s)[k], s[k])
    {
      assert Lower(s)[k] == LowerChar(s[k]);
    }
  }

  /** No leading and no trailing whitespace. */
  predicate IsTrimmed(s: string) {
    s == [] || (!IsSpace(s[0]) && !IsSpace(s[|s| - 1]))
  }

  predicate AllSpace(s: string) {
    SpaceBetween(s, 0, |s|)
  }

  /** Every character of `s` at positions `lo` up to (excluding) `hi` is whitespace. */
  predicate SpaceBetween(s: string, lo: int, hi: int) {
    forall k :: lo <= k < hi && 0 <= k < |s| ==> IsSpace(s[k])
  }

  /** The first position from `i` on that does not hold whitespace, or `|s|`. */
  function SkipSpace(s: string, i: nat): (j: nat)
    requires i <= |s|
    ensures i <= j <= |s|
    ensures SpaceBetween(s, i, j)
    ensures j < |s| ==> !IsSpace(s[j])
    decreases |s| - i
  {
    if i < |s| && IsSpace(s[i]) then SkipSpace(s, i + 1) else i
  }

  /** The end of `s[lo..j]` once its trailing whitespace is dropped. */
  function SkipSpaceBack(s: string, lo: nat, j: nat): (k: nat)
    requires lo <= j <= |s|
    ensures lo <= k <= j
    ensures SpaceBetween(s, k, j)
    ensures lo < k ==> !IsSpace(s[k - 1])
  {
    if lo < j && IsSpace(s[j - 1]) then SkipSpaceBack(s, lo, j - 1) else j
  }

  /** Where the text `strip()` keeps starts: after the leading whitespace. */
  function TrimStart(s: string): nat {
    SkipSpace(s, 0)
  }

  /** Where the text `strip()` keeps ends: before the trailing whitespace. */
  function TrimEnd(s: string): (e: nat)
    ensures TrimStart(s) <= e <= |s|
  {
    SkipSpaceBack(s, TrimStart(s), |s|)
  }

  /**
   * `s.strip()`: drops the whitespace at both ends. What is left neither
   * starts nor ends with whitespace; `TrimIsInfix` says where it sits in `s`.
   */
  function Trim(s: string): (r: string)
    ensures IsTrimmed(r)
    ensures |r| <= |s|
    ensures r == [] <==> AllSpace(s)
    ensures IsTrimmed(s) ==> r == s
  {
    TrimEmpty(s);
    TrimOfTrimmed(s);
    s[TrimStart(s)..TrimEnd(s)]
  }

  /** Nothing is left between the two ends exactly when everything is whitespace. */
  lemma TrimEmpty(s: string)
    ensures TrimStart(s) == TrimEnd(s) <==> AllSpace(s)
  {
    var a, b := TrimStart(s), TrimEnd(s);
    if a == b {
      forall k | 0 <= k < |s|
        ensures IsSpace(s[k])
      {
        if k >= a {
          assert SpaceBetween(s, b, |s|);
        }
      }
    }
  }

  /** A string without whitespace at either end is cut nowhere. */
  lemma TrimOfTrimmed(s: string)
    ensures IsTrimmed(s) && s != [] ==> TrimStart(s) == 0 && TrimEnd(s) == |s|
  {
  }

  /**
   * `strip()` keeps the infix of `s` between its leading and its trailing
   * whitespace, and cuts only whitespace on either side of it.
   */
  lemma TrimIsInfix(s: string)
    ensures Trim(s) == s[TrimStart(s)..TrimEnd(s)]
    ensures SpaceBetween(s, 0, TrimStart(s))
    ensures SpaceBetween(s, TrimEnd(s), |s|)
  {
  }

  /** Every character that survives `strip()` was in the input. */
  lemma TrimChars(s: string, c: char)
    requires c in Trim(s)
    ensures c in s
  {
    var k :| 0 <= k < |Trim(s)| && Trim(s)[k] == c;
    assert s[TrimStart(s) + k] == c;
  }

  /** Skipping whitespace from `i` stops at the first non-whitespace position `a` after it. */
  lemma {:induction false} SkipSpaceStops(s: string, i: nat, a: nat)
    requires i <= a < |s|
    requires SpaceBetween(s, i, a) && !IsSpace(s[a])
    ensures SkipSpace(s, i) == a
    decreases a - i
  {
    if i < a {
      SkipSpaceStops(s, i + 1, a);
    }
  }

  /** Skipping whitespace backwards from `j` stops right after the last non-whitespace position. */
  lemma {:induction false} SkipSpaceBackStops(s: string, lo: nat, b: nat, j: nat)
    requires lo < b <= j <= |s|
    requires SpaceBetween(s, b, j) && !IsSpace(s[b - 1])
    ensures SkipSpaceBack(s, lo, j) == b
    decreases j - b
  {
    if b < j {
      SkipSpaceBackStops(s, lo, b, j - 1);
    }
  }

  /**
   * `strip()` keeps exactly the infix `s[a..b]` that starts and ends with
   * non-whitespace and has only whitespace around it.
   */
  lemma {:induction false} TrimUnique(s: string, a: nat, b: nat)
    requires a < b <= |s|
    requires SpaceBetween(s, 0, a) && SpaceBetween(s, b, |s|)
    requires !IsSpace(s[a]) && !IsSpace(s[b - 1])
    ensures Trim(s) == s[a..b]
  {
    SkipSpaceStops(s, 0, a);
    SkipSpaceBackStops(s, a, b, |s|);
  }

  /** Whitespace around whitespace is whitespace. */
  lemma {:induction false} AllSpaceConcat(pre: string, s: string, post: string)
    requires AllSpace(pre) && AllSpace(s) && AllSpace(post)
    ensures AllSpace(pre + s + post)
  {
    var u := pre + s + post;
    forall k | 0 <= k < |u|
      ensures IsSpace(u[k])
    {
      if k < |pre| {
        assert u[k] == pre[k];
      } else if k < |pre| + |s| {
        assert u[k] == s[k - |pre|];
      } else {
        assert u[k] == post[k - |pre| - |s|];
      }
    }
  }

  /** Padding with whitespace extends the whitespace at either end of `s` by the padding. */
  lemma {:induction false} PaddedEnds(pre: string, s: string, post: string, a: nat, b: nat)
    requires AllSpace(pre) && AllSpace(post)
    requires a <= b <= |s|
    requires SpaceBetween(s, 0, a) && SpaceBetween(s, b, |s|)
    ensures SpaceBetween(pre + s + post, 0, |pre| + a)
    ensures SpaceBetween(pre + s + post, |pre| + b, |pre + s + post|)
  {
    var u, n := pre + s + post, |pre|;
    forall k | 0 <= k < n + a
      ensures IsSpace(u[k])
    {
      if k < n {
        assert u[k] == pre[k];
      } else {
        assert u[k] == s[k - n];
      }
    }
    forall k | n + b <= k < |u|
      ensures IsSpace(u[k])
    {
      if k < n + |s| {
        assert u[k] == s[k - n];
      } else {
        assert u[k] == post[k - n - |s|];
      }
    }
  }

  /** Whitespace around a string is all `strip()` removes from it. */
  lemma {:induction false} TrimPadded(pre: string, s: string, post: string)
    requires AllSpace(pre) && AllSpace(post)
    ensures Trim(pre + s + post) == Trim(s)
  {
    if AllSpace(s) {
      AllSpaceConcat(pre, s, post);
    } else {
      TrimPaddedText(pre, s, post);
    }
  }

  /** `TrimPadded` for a string that is not all whitespace. */
  lemma {:induction false} TrimPaddedText(pre: string, s: string, post: string)
    requires AllSpace(pre) && AllSpace(post) && !AllSpace(s)
    ensures Trim(pre + s + post) == Trim(s)
  {
    var a, b := TrimStart(s), TrimEnd(s);
    TrimIsInfix(s);
    TrimEmpty(s);
    PaddedEnds(pre, s, post, a, b);
    PaddedSlice(pre, s, post, a, b);
    TrimUnique(pre + s + post, |pre| + a, |pre| + b);
  }

  /** The copy of `s[a..b]` inside the padded string, shifted by the front padding. */
  lemma {:induction false} PaddedSlice(pre: string, s: string, post: string, a: nat, b: nat)
    requires a < b <= |s|
    ensures (pre + s + post)[|pre| + a..|pre| + b] == s[a..b]
    ensures (pre + s + post)[|pre| + a] == s[a] && (pre + s + post)[|pre| + b - 1] == s[b - 1]
  {
    assert pre + s + post == pre + (s + post);
  }

  /** Lower-casing keeps every whitespace character and creates none. */
  lemma {:induction false} LowerKeepsSpaces(s: string)
    ensures forall k :: 0 <= k < |s| ==> (IsSpace(Lower(s)[k]) <==> IsSpace(s[k]))
  {
  }

  /** Lower-casing a slice is slicing the lower-cased string. */
  lemma {:induction false} LowerSlice(s: string, a: nat, b: nat)
    requires a <= b <= |s|
    ensures Lower(s[a..b]) == Lower(s)[a..b]
  {
    var l, m := Lower(s), Lower(s[a..b]);
    forall k | 0 <= k < b - a
      ensures m[k] == l[a..b][k]
    {
      assert m[k] == LowerChar(s[a..b][k]);
      assert s[a..b][k] == s[a + k];
    }
  }

  /** Stripping and lower-casing can be done in either order. */
  lemma {:induction false} LowerTrim(s: string)
    ensures Lower(Trim(s)) == Trim(Lower(s))
  {
    var l := Lower(s);
    LowerKeepsSpaces(s);
    if AllSpace(s) {
      assert AllSpace(l);
    } else {
      var a, b := TrimStart(s), TrimEnd(s);
      TrimIsInfix(s);
      TrimUnique(l, a, b);
      LowerSlice(s, a, b);
    }
  }

  /** `needle` occurs in `hay` starting at position `k`. */
  predicate OccursAt(hay: string, needle: string, k: int) {
    0 <= k && k + |needle| <= |hay| && hay[k..k + |needle|] == needle
  }

  /** Python's `needle in hay`. */
  function Contains(hay: string, needle: string): (r: bool)
    ensures r <==> exists k :: OccursAt(hay, needle, k)
    decreases |hay|
  {
    if |needle| <= |hay| && hay[..|needle|] == needle then
      assert OccursAt(hay, needle, 0);
      true
    else if hay == [] then
      assert forall k :: !OccursAt(hay, needle, k);
      false
    else
      ContainsShift(hay, needle);
      Contains(hay[1..], needle)
  }

  /** An occurrence not at position 0 is an occurrence in the tail, shifted by one. */
  lemma ContainsShift(hay: string, needle: string)
    requires hay != [] && !OccursAt(hay, needle, 0)
    ensures (exists k :: OccursAt(hay, needle, k)) <==> (exists k :: OccursAt(hay[1..], needle, k))
  {
    if k :| OccursAt(hay, needle, k) {
      assert k >= 1;
      assert hay[1..][k - 1..k - 1 + |needle|] == hay[k..k + |needle|];
      assert OccursAt(hay[1..], needle, k - 1);
    }
    if k :| OccursAt(hay[1..], needle, k) {
      assert hay[1..][k..k + |needle|] == hay[k + 1..k + 1 + |needle|];
      assert OccursAt(hay, needle, k + 1);
    }
  }

  /** The empty string is a substring of every string, the empty one included. */
  lemma ContainsEmpty(hay: string)
    ensures Contains(hay, "")
  {
    assert OccursAt(hay, "", 0);
  }

  /** Inverse of `Split`: the pieces glued back together with the separator. */
  function Join(parts: seq<string>, sep: char): string {
    if |parts| == 0 then ""
    else if |parts| == 1 then parts[0]
    else parts[0] + [sep] + Join(parts[1..], sep)
  }

  /**
   * `s.split(sep)`: the maximal separator-free pieces, so that there is always
   * at least one piece (`"".split("|") == [""]`).
   */
  function Split(s: string, sep: char): (r: seq<string>)
    ensures |r| >= 1
    ensures forall p :: p in r ==> sep !in p
    ensures Join(r, sep) == s
    decreases |s|
  {
    if s == [] then [""]
    else
      var rest := Split(s[1..], sep);
      if s[0] == sep then
        assert s == [sep] + s[1..];
        [""] + rest
      else
        var r := [[s[0]] + rest[0]] + rest[1..];
        assert r[1..] == rest[1..];
        assert s == [s[0]] + s[1..];
        r
  }

  /** A separator-free string is a single piece. */
  lemma {:induction false} SplitNoSep(p: string, sep: char)
    requires sep !in p
    ensures Split(p, sep) == [p]
    decreases |p|
  {
    if p != [] {
      SplitNoSep(p[1..], sep);
      assert [p[0]] + p[1..] == p;
    }
  }

  /** Splitting a separator-free piece followed by the separator peels that piece off. */
  lemma {:induction false} SplitCons(p: string, sep: char, tail: string)
    requires sep !in p
    ensures Split(p + [sep] + tail, sep) == [p] + Split(tail, sep)
    decreases |p|
  {
    var s := p + [sep] + tail;
    if p == [] {
      assert s[1..] == tail;
    } else {
      assert s[1..] == p[1..] + [sep] + tail;
      SplitCons(p[1..], sep, tail);
      assert [p[0]] + p[1..] == p;
    }
  }

  /** Split undoes Join whenever no piece contains the separator. */
  lemma {:induction false} SplitJoin(parts: seq<string>, sep: char)
    requires |parts| >= 1
    requires forall p :: p in parts ==> sep !in p
    ensures Split(Join(parts, sep), sep) == parts
    decreases |parts|
  {
    if |parts| == 1 {
      SplitNoSep(parts[0], sep);
    } else {
      SplitJoin(parts[1..], sep);
      SplitCons(parts[0], sep, Join(parts[1..], sep));
      assert [parts[0]] + parts[1..] == parts;
    }
  }
}
